=== FILE: README.md ===
# calendiario-js in Dafny

A Dafny model of the pure core of calendiario-js. It covers two parts.

- **`utils.js` helpers:**
  - the HEX colour codec (`RGBtoHEX`, `HEXToRGB`);
  - the HSL lightness adjuster (`changeLightness`);
  - the sequence helpers (`chunk`, `pattern`, `range`, `uniques`, `zip`, `zipObject`, `exclude`, `combine`);
  - the scalar and string helpers (`padNumber`, `formatString`, `isBetween`, `pluralize`, `isLeapYear`).
- **The month view of `calendiario.js`:**
  - the seven weekday initials;
  - one blank `' '` per weekday before the first of the month;
  - then the days `1..daysInMonth`.

JavaScript values are modelled as follows:

- Numbers are unbounded integers, and strings are `seq<char>`.
- `undefined` is `None` of an `Option`, and so is an exception thrown by a helper.
- The unsigned shift `>>>` and the mask `&` reduce their operand modulo 2^32. They are written as division and remainder on naturals.

Modules:

| file | module | what it holds |
|---|---|---|
| wrappers.dfy | `Wrappers` | `Option`, and `At` (an array slot, `undefined` past the end) |
| text.dfy | `Text` | numerals in base 2..16 (`toString(base)`, `parseInt`/`Number` values), `padStart` |
| colors.dfy | `Colors` | `RGBtoHEX`, `HEXToRGB` |
| lightness.dfy | `Lightness` | `changeLightness` and the `match(/\d+/g)` digit runs |
| arrays.dfy | `Arrays` | `chunk`, `pattern`, `uniques`, `zip`, `zipObject`, `exclude`, `combine` |
| ranges.dfy | `Ranges` | `range` as written, and the inclusive range its documentation describes |
| scalars.dfy | `Scalars` | `padNumber`, `formatString`, `isBetween`, `pluralize`, `isLeapYear` |
| calendar.dfy | `Calendar` | the month cell sequence, built by the page's loop and laid out in rows of seven |

## Model

| member | source | states |
|---|---|---|
| `Colors.RgbToHex` | utils.js:898-899 | For channels in 0..255 the result is exactly six lower-case hex digits, and their value is `r·65536 + g·256 + b`. |
| `Colors.Expand` | utils.js:914-916 | A 3-digit body has each digit doubled into a 6-digit body; other lengths are kept. |
| `Colors.HexToRgb` | utils.js:906-931 | `HEXToRGB`: the channels of the colour body, rendered. `ParseSixDigits`, `ParseEightDigits`, `ShorthandDoubles`, `HashIgnored` and the two round trips below state what it returns. |
| `Colors.Render` | utils.js:920-931 | The text `rgb(r, g, b)`, or `rgba(r, g, b, a)`, with decimal channels. `RgbHexRoundTrip` states it for a parsed colour. |
| `Colors.ParseChannels` | utils.js:906-931 | The result is RGBA exactly when the body has 8 digits. Green, blue and alpha are bytes, and so is red for RGBA. |
| `Colors.PairAt` | utils.js:925-929 | Two hex digits make a value below 256, one channel byte. |
| `Colors.ParseSixDigits` | utils.js:919-929 | For a 6-digit body, the channels are the bytes written by digit pairs 0-1, 2-3 and 4-5. |
| `Colors.ParseEightDigits` | utils.js:917-930 | For an 8-digit body, the four channels are the four digit pairs, and alpha is the low byte. |
| `Colors.ShorthandDoubles` | utils.js:914-916 | A 3-digit colour gives the same output as its 6-digit expansion. Each channel is `17 ×` its digit. |
| `Colors.HashIgnored` | utils.js:913 | Prefixing `#` does not change the channels or the output. |
| `Colors.RgbHexChannels` | utils.js:898-899 | Parsing the hex string of `(r, g, b)` gives back the channels `r, g, b`. |
| `Colors.ThreeBytesUnique` | utils.js:899 | The packing `r·65536 + g·256 + b` of three bytes is injective. |
| `Colors.RgbHexRoundTrip` | utils.js:898-931 | `HEXToRGB(RGBtoHEX(r, g, b))` is `"rgb(r, g, b)"`, with or without `#`. |
| `Colors.HexRgbRoundTrip` | utils.js:898-931 | A lower-case 6-digit colour is written back unchanged by `RGBtoHEX` of its parsed channels. |
| `Colors.LowerHexInjective` | utils.js:899 | Two lower-case hex numerals of equal length and value are the same string. |
| `Lightness.ChangeLightness` | utils.js:836-845 | `changeLightness`. It throws exactly for an input without digits (`ChangeLightnessFails`). With three or more digit runs it renders H, S and the clamped L + delta (`ChangeLightnessRuns`, `LightnessInRange`, `LightnessFollowsDelta`). With one run it renders `hsl(H, undefined%, NaN%)`, and with two `hsl(H, S%, NaN%)`, as the destructuring of a short match leaves them. |
| `Lightness.LeadingDigits` | utils.js:837 | The count of leading decimal digits; the next character, if any, is not a digit. |
| `Lightness.DigitRuns` | utils.js:837 | Every match of `/\d+/g` is a non-empty run of decimal digits. |
| `Lightness.Clamp` | utils.js:839-842 | `max(0, min(100, x))` lies in [0, 100] and keeps values already in range. |
| `Lightness.ChangeLightnessRuns` | utils.js:836-845 | With three digit runs H, S, L in the input, the output's digit runs are H, S and `clamp(L + delta)`. |
| `Lightness.ChangeLightnessOfHsl` | utils.js:836-845 | On a rendered `hsl(H, S%, L%)` the adjustment keeps H and S and clamps `L + delta`. |
| `Lightness.LightnessInRange` | utils.js:839-842 | With three or more digit runs in the input, the output lightness is in [0, 100]. With fewer it renders as `NaN`. |
| `Lightness.ChangeLightnessTwice` | utils.js:836-845 | Two adjustments keep hue and saturation and clamp the lightness after each step. |
| `Lightness.ChangeLightnessZero` | utils.js:836-845 | An output is a fixed point of a zero adjustment. |
| `Lightness.ChangeLightnessFails` | utils.js:837 | The source throws (`match` returns null) exactly when the input has no decimal digit. |
| `Lightness.LightnessFollowsDelta` | utils.js:832-841 | For an input lightness of at most 100: the code adds the delta, so a positive delta never lowers the lightness, a negative one never raises it, and a positive one strictly raises it below 100. The doc comment says the opposite. Above 100 the clamp lowers the lightness to 100 whatever the delta's sign. |
| `Lightness.LightnessExample` | utils.js:832-844 | `changeLightness(10, 'hsl(210, 39%, 59%)')` is `hsl(210, 39%, 69%)`: a positive delta made the colour lighter. |
| `Lightness.ChangeLightnessAsDocumented` | utils.js:830-845 | The adjustment in the direction the doc comment gives: the delta is subtracted from the lightness before clamping. |
| `Lightness.DocumentedIsNegated` | utils.js:832-841 | The documented adjustment by `delta` is the coded one by `-delta`. |
| `Lightness.DocumentedLightnessDirection` | utils.js:832 | For an input lightness of at most 100, the documented adjustment keeps hue and saturation. A positive delta darkens it (never raises the lightness, and strictly lowers it above 0), and a negative one lightens it. |
| `Lightness.RunsOfHsl` | utils.js:844 | The digit runs of `hsl(H, S%, L%)` are exactly H, S and L. |
| `Text.ToBase` | utils.js:899 | `toString(base)` of a natural: at least one lower-case digit of the base. `ValueOfToBase` reads it back as the number, and `ToBaseNoLeadingZero` shows there is no leading zero. |
| `Text.ToBaseNoLeadingZero` | utils.js:899 | The numeral starts with `0` exactly for the number 0, so it never has a leading zero. |
| `Text.ValueOfToBase` | utils.js:899 | `toString(base)` is read back by `parseInt(·, base)` as the same number. |
| `Text.ToBaseValueOf` | utils.js:919 | A lower-case numeral without a leading zero is exactly the `toString` of its value. |
| `Text.ToBaseLength` | utils.js:899 | A number below `base^k` has at most `k` digits. So the hex of a 24-bit value has at most six digits, and `padStart(6)` makes it exactly six. |
| `Text.ValueOfLeadingZeros` | utils.js:768 | Zeros added by `padStart` do not change a numeral's value. |
| `Text.PadStart` | utils.js:768 | The result is `max(target, len)` long, ends with the input, and the rest is the fill character. |
| `Arrays.ChunkBy` | utils.js:193-195 | `chunk` for a positive size: `ceil(n / size)` slices. `ChunkFlatten`, `ChunkShape` and `ChunkAt` state what they hold. |
| `Arrays.Chunk` | utils.js:193-195 | The size defaults to 2. It fails (`Array.from` with an infinite length) exactly for size 0 with a non-empty array. A non-positive size gives no chunks. |
| `Arrays.ChunkFlatten` | utils.js:193-195 | The chunks concatenate back to the array. |
| `Arrays.ChunkShape` | utils.js:193-195 | There are `ceil(n / size)` chunks. Each but the last holds `size` elements, and the last holds 1 to `size`. |
| `Arrays.ChunkAt` | utils.js:195 | Element `i` of the array is element `i % size` of chunk `i / size`. |
| `Arrays.Pattern` | utils.js:203-204 | `pattern`: `size` copies of the pattern, concatenated. `PatternAt` and `ChunkPattern` state them. |
| `Arrays.PatternAt` | utils.js:203-204 | The result has `size·|pat|` elements, and element `i` is `pat[i % |pat|]`. |
| `Arrays.ZeroPattern` | utils.js:203-204 | `pattern` with the source's defaults, the pattern `[0]` and size 1: `size` zeros, so `pattern()` is `[0]`. |
| `Arrays.ChunkPattern` | utils.js:203-204 | Chunking a pattern by its length gives the pattern back `size` times. |
| `Arrays.UniquesFrom` | utils.js:185 | The kept elements are the input's elements minus those already seen: no repeats, in input order. |
| `Arrays.Uniques` | utils.js:185 | The result has the input's set of elements, no duplicates, and is a subsequence of the input. |
| `Arrays.UniquesOrder` | utils.js:185 | Elements appear in the order of their first occurrence in the input. |
| `Arrays.UniquesFromNoDuplicates` | utils.js:185 | An array without repeats is kept as it is. |
| `Arrays.UniquesIdempotent` | utils.js:185 | `uniques(uniques(a)) == uniques(a)`. |
| `Arrays.Zip` | utils.js:403 | `zip`: each element of the first array paired with a slot of the second. `ZipUnzip` states the pairs. |
| `Arrays.ZipUnzip` | utils.js:403 | `zip` keeps the first array's length and elements. The second component at index `i` is the second array's element `i` while there is one, and `undefined` past its end. |
| `Arrays.ZipObject` | utils.js:413-419 | The keys are exactly the props. Each key maps to the value at its last index, or `undefined` past the end of the values. |
| `Arrays.ZipObjectIgnoresExtra` | utils.js:405-419 | Values beyond the number of props are ignored. |
| `Arrays.ZipObjectOfZip` | utils.js:403-419 | Each key holds the second component of the last `zip` pair with that key. |
| `Arrays.Exclude` | utils.js:468-469 | It keeps exactly the elements not in the exclusion list, with their multiplicities and order. |
| `Arrays.ExcludeNothing` | utils.js:468-469 | Excluding items that do not occur keeps the array. |
| `Arrays.ExcludeIdempotent` | utils.js:468-469 | Excluding twice is excluding once. |
| `Arrays.Combine` | utils.js:350-351 | `combine`: the reduction from `[[]]`. `CombineContract`, `CombineOrder` and `CombineExample` state its count, its members and their order. |
| `Arrays.CombineContract` | utils.js:350-351 | `combine` yields the product of the lengths many tuples. A tuple is among them exactly when its `j`-th element comes from the `j`-th array. |
| `Arrays.CombineFromMembers` | utils.js:351 | Membership in the reduction from an accumulator of prefixes: a prefix from the accumulator followed by a pick. |
| `Arrays.ExtendAt` | utils.js:351 | In one `flatMap` step, element `i·|b| + j` is prefix `i` followed by `b[j]`. |
| `Arrays.CombineFromSnoc` | utils.js:351 | The reduction is a left fold: one more array is one more `flatMap` step on the result. |
| `Arrays.CombineOrder` | utils.js:345-351 | `combine([])` is `[[]]`. Appending an array `b` turns tuple `i` into the tuples `i·|b| + j`: tuple `i` followed by `b[j]`, in order. This fixes each tuple's position, and so how often it occurs. |
| `Arrays.CombineExample` | utils.js:345-351 | `combine([[1, 2], [4, 5]])` is `[[1, 4], [1, 5], [2, 4], [2, 5]]`, as documented. |
| `Ranges.Range` | utils.js:242-245 | The step defaults to 1. It starts at `from`. Every element but the last is below `to`, and the last is at or above it. |
| `Ranges.RangeLength` | utils.js:242-245 | There are `1 + ceil((to - from) / step)` elements, or one when `from >= to`. |
| `Ranges.RangeAt` | utils.js:242-245 | Element `i` is `from + i·step`. |
| `Ranges.RangeWithin` | utils.js:235-241 | The documented range is empty exactly when `from > to`. It starts at `from`, stays within `[from, to]`, and stops before `to` is passed. |
| `Ranges.RangeWithinAt` | utils.js:235-241 | Element `i` of the documented range is `from + i·step`. |
| `Ranges.RangeLandsOnLimit` | utils.js:242-245 | When the last element of `range` is exactly `to`, `range` is the documented range. |
| `Ranges.RangePassesLimit` | utils.js:242-245 | When the last element of `range` is past `to`, `range` is the documented range plus that element. |
| `Ranges.RangeOvershoot` | utils.js:242-245 | `range` equals the documented range when its last element lands on `to`. Otherwise it is that range plus one element past `to`. |
| `Ranges.RangeOvershootExample` | utils.js:242-245 | `range(1, 10, 4)` is `[1, 5, 9, 13]`, and `range(5, 1)` is `[5]`. |
| `Ranges.StepOneAgrees` | utils.js:242-245 | With step 1 and `from <= to`, `range` is the `to - from + 1` consecutive integers from `from`. |
| `Scalars.PadNumber` | utils.js:768 | `padNumber`, with the width defaulting to 2. `PadNumberValue`, `PadNumberRoundTrip` and `PadNegativeExample` state what it returns. |
| `Scalars.PadNumberValue` | utils.js:768 | For `n >= 0` the padded string is a decimal numeral of value `n`, `max(z, digits)` long. It is the bare numeral when `z` is no longer. |
| `Scalars.PadNumberRoundTrip` | utils.js:768 | Padding with the same width is injective on non-negative numbers. |
| `Scalars.PadNegativeExample` | utils.js:768 | `padNumber(-5, 3)` is `"0-5"`; `padNumber(7)` is `"07"`. |
| `Scalars.FormatString` | utils.js:797-802 | `formatString`: the scan from argument 0. `FormatStringFills` gives its output for every argument list. `FormatStringWeave`, `FormatStopsAtUndefined`, `FormatCutAtUndefined` and `FormatStringExample` state particular cases. |
| `Scalars.FormatFrom` | utils.js:797-802 | A template without `{}` is returned unchanged. |
| `Scalars.PiecesRebuild` | utils.js:799 | The literal pieces, rejoined with `{}` between them, give the template back: they are the template cut at the placeholders the scan finds. |
| `Scalars.FormatWeave` | utils.js:797-802 | From counter `i` with defined arguments, the output is the template's literal pieces interleaved with the arguments from `i` on. |
| `Scalars.FormatStringWeave` | utils.js:797-802 | With enough defined arguments, `formatString` is the literal pieces interleaved with the arguments, and extra arguments are ignored. |
| `Scalars.Fills` | utils.js:800 | The fills of `k` placeholders: the argument values in order, then `""` for each placeholder left once they run out. |
| `Scalars.FormatWeaveFills` | utils.js:797-802 | With every argument defined, the output from counter `i` is the literal pieces interleaved with the arguments from `i` on. Placeholders beyond them become `""`. |
| `Scalars.FormatStringFills` | utils.js:797-802 | For every argument list, with `k` the index of the first `undefined` argument (or their count), the output is the literal pieces interleaved with the first `k` arguments, padded with `""`. So `formatString("{}-{}", "a")` is `"a-"`. |
| `Scalars.FormatStopsAtUndefined` | utils.js:800 | Once the counter sits on an `undefined` argument (or past the end), every remaining placeholder is erased. |
| `Scalars.FormatCutAtUndefined` | utils.js:800 | Arguments from the first `undefined` one on never reach the output. |
| `Scalars.EraseJoinsPieces` | utils.js:799-801 | With no arguments, the output is the literal pieces joined. |
| `Scalars.FormatStringExample` | utils.js:797-802 | `formatString("{}-{}", "a", "b")` is `"a-b"`, and an `undefined` first argument gives `"-"`. |
| `Scalars.IsBetween` | utils.js:459-460 | `isBetween`, both limits included. `IsBetweenRange` relates it to the integer range. |
| `Scalars.IsBetweenRange` | utils.js:459-460 | `isBetween(v, low, high)` is membership in the inclusive integer range, which `range(low, high)` builds when `low <= high`. |
| `Scalars.Pluralize` | utils.js:220-221 | `pluralize`, with the suffix defaulting to `"s"`. `PluralizeForms` states its two cases. |
| `Scalars.PluralizeForms` | utils.js:214-221 | The suffix is `""` for a counter of exactly 1. For every other counter it is the given suffix, or `"s"` by default. Appended to a word, it leaves the word bare exactly when the counter is 1 or the suffix is empty; otherwise the word ends with the suffix. |
| `Scalars.IsLeapYear` | utils.js:72-73 | `isLeapYear` as written. `IsLeapYearOnly400` and `LeapYearCounterexample` state what it accepts. |
| `Scalars.IsGregorianLeapYear` | utils.js:67-73 | The leap-year rule the doc comment names. `LeapYearDiscrepancy` relates it to the source's test. |
| `Scalars.IsLeapYearOnly400` | utils.js:72-73 | The source's test holds exactly for the multiples of 400. |
| `Scalars.LeapYearDiscrepancy` | utils.js:67-73 | Every year the source calls leap is a Gregorian leap year. The two differ exactly on years divisible by 4 and not by 100. |
| `Scalars.LeapYearCounterexample` | utils.js:72-73 | 2024 is a leap year the source rejects; 2000 and 1900 are judged alike. |
| `Calendar.Content` | calendiario.js:28-34 | What each list item shows. A header shows its initial and a blank shows `" "`. A day shows the decimal numeral of its day with no leading zero, which is the one string `String(d)` gives. |
| `Calendar.MonthCells` | calendiario.js:6-30 | There are `7 + firstWeekday + daysInMonth` cells: the initials `D L M X J V S`, then `firstWeekday` blanks, then day `j - 6 - firstWeekday` at each later index `j`. |
| `Calendar.BuildMonth` | calendiario.js:18-30 | The page's counting loop and spreads build exactly the month cell sequence. |
| `Calendar.DayIndex` | calendiario.js:18-30 | Day `d` sits at index `7 + firstWeekday + d - 1`. |
| `Calendar.MonthDays` | calendiario.js:18-20 | The day numbers of the view are `1..daysInMonth`, ascending with no gap, which is `range(1, daysInMonth)` for a non-empty month. |
| `Calendar.DayColumn` | calendiario.js:6-30 | Laid out seven to a row, the first row is the header. Day `d` falls under the initial of weekday `(firstWeekday + d - 1) % 7`. |
| `Calendar.MonthRows` | calendiario.js:6-30 | A month of 28 to 31 days starting on any weekday takes 5 to 7 rows of seven, and every row but the last is full. |

## Left out

- `HSLtoRGB` and `RGBtoHSL`: floating-point conversions, approximate by design.
- DOM, events, timers, fetch, `memoize`, random numbers and `console`: host side effects with no data contract. This covers the creation and appending of the `<li>` nodes in calendiario.js (lines 32-36) and its commented-out variant. What each node shows (line 34) is `Calendar.Content`.
- `MONTHS`, `DAYS`, `aboutDate`, `formatDate`, and the `new Date()` lookups of calendiario.js (lines 13-16): they depend on the clock and the locale. The first weekday and the month length are parameters of the calendar model.
- The regular-expression and letter-case helpers, the object and reflection helpers, and the higher-order combinators: they have no data contract worth stating.
- Colors.HexToRgb: modelled for inputs whose body (after an optional `#`) is hex digits only, at most 13 of them, so that `parseInt` is exact. `parseInt`'s prefix parsing of other characters and float rounding of longer bodies are not modelled. Lengths other than 3, 6 and 8 are modelled and follow the 6-digit path.
- Colors.RgbToHex: channels are bytes 0..255, as documented. Out-of-range or fractional channels are not modelled.
- Lightness.ChangeLightness: `delta` is an integer, so `parseFloat` of a fractional delta is not modelled. Digit runs are read as exact naturals, so runs of 2^53 and above, where `Number` rounds, are not modelled.
- Ranges.Range: step ≥ 1 only. With a step of 0 or less and `from < to` the source recurses until the stack overflows. The source also recurses once per element, so a long enough range overflows the engine's stack even with a positive step. The model has no stack and no such length limit.
- Arrays.Pattern: `size` is a natural number. The defaults are modelled by `Arrays.ZeroPattern`. A negative size (`Array` throws a RangeError) and a non-array pattern (which `flat` leaves as scalars) are not modelled.
- Arrays.ZipObject: keys are compared as values. JavaScript coerces object keys to strings, so `1` and `"1"` would collide.
- Arrays.Exclude: `includes` compares with SameValueZero, and `T`'s equality stands for it. SameValueZero makes `NaN` equal to itself, as equality does. It also makes `+0` equal to `-0`, and it compares objects and arrays by identity, not by contents. Neither of those two is modelled.
- Arrays.Uniques: `new Set` compares with SameValueZero too, so the same note applies: `+0` and `-0` are one element, and distinct objects with equal contents are kept apart.
- Scalars.PadNumber: every integer is written as plain decimal digits. `` `${$n}` `` writes numbers of 1e21 and above in exponent notation (`"1e+21"`), and numbers above 2^53 have already been rounded. Neither is modelled.
- Scalars.FormatString: arguments are modelled as their rendered strings. `String(x)` conversion of non-string values is not modelled.
- Scalars.IsBetween: integers only. Comparison of strings and `NaN` is not modelled.
- Scalars.Pluralize: integer counters only. Strict equality with non-numbers is not modelled.
- `fibonacciUntil`: it only calls a callback, so it has no result to state.

## Findings

| source | as written | input that shows it | evidently intended | confidence | as-written member | corrected member |
|---|---|---|---|---|---|---|
| utils.js:72-73 | `isLeapYear` requires divisibility by 4 and 100 and 400, which is divisibility by 400 alone | `isLeapYear(2024)` is false | the Gregorian rule: divisible by 4, and not by 100 unless by 400 | high; not executed | `Scalars.LeapYearCounterexample` | `Scalars.LeapYearDiscrepancy` |
| utils.js:242-245 | `range` stops at the first value at or above `$to`, so it passes the documented upper limit when the step does not land on it, and gives `[from]` when `from > to` | `range(1, 10, 4)` is `[1, 5, 9, 13]` | the values from `$from` up to and including `$to` | medium; not executed | `Ranges.RangeOvershootExample` | `Ranges.RangeOvershoot` |
| utils.js:832-841 | `changeLightness` adds `$delta` to the lightness, so for an input lightness of at most 100 a positive delta lightens the colour. The doc comment says a negative delta lightens and a positive one darkens | `changeLightness(10, 'hsl(210, 39%, 59%)')` gives lightness 69, lighter | a negative delta lightens and a positive one darkens, as the doc comment says (which of the two the authors meant is not certain) | medium; not executed | `Lightness.LightnessFollowsDelta` | `Lightness.DocumentedLightnessDirection` |

For the first finding:

- `Scalars.IsLeapYear` is the test as written, and `Scalars.IsGregorianLeapYear` is the corrected rule.
- `Scalars.IsLeapYearOnly400` states what the test as written accepts.

For the second finding:

- `Ranges.Range` is the function as written.
- `Ranges.RangeWithin` is the documented range. The calendar's day numbers are stated against it (`Calendar.MonthDays`).

For the third finding:

- `Lightness.ChangeLightness` is the function as written, and the rest of the model's lightness lemmas are about it. `Lightness.LightnessExample` works the input of the table through it.
- `Lightness.ChangeLightnessAsDocumented` is the adjustment in the documented direction. `Lightness.DocumentedIsNegated` shows that it is the coded adjustment with the delta negated.

=== FILE: arrays.dfy ===
/** The array helpers of utils.js, on immutable sequences: `chunk`, `pattern`, `uniques`,
    `zip`, `zipObject`, `exclude` and `combine`. (`range` is in module Ranges.) */
module Arrays {
  import opened Wrappers
  import opened Text

  /** Concatenation of a sequence of sequences: `Array.prototype.flat()` one level deep. */
  function Flatten<T>(ss: seq<seq<T>>): seq<T> {
    if |ss| == 0 then [] else ss[0] + Flatten(ss[1..])
  }

  /** The elements of a sequence as a set. */
  function Elements<T>(s: seq<T>): set<T> {
    set x | x in s
  }

  /** No element occurs twice. */
  predicate NoDuplicates<T(==)>(s: seq<T>) {
    forall i, j :: 0 <= i < j < |s| ==> s[i] != s[j]
  }

  /** `x` is obtained from `y` by deleting elements (order kept). */
  predicate IsSubsequence<T(==)>(x: seq<T>, y: seq<T>)
    decreases |y|
  {
    |x| == 0
    || (|y| > 0 && ((x[0] == y[0] && IsSubsequence(x[1..], y[1..])) || IsSubsequence(x, y[1..])))
  }

  // ---------------------------------------------------------------------------------------
  // chunk

  /** `Math.ceil(n / size)` for a positive size. */
  function CeilDiv(n: nat, size: nat): nat
    requires size >= 1
  {
    (n + size - 1) / size
  }

  /** `a.slice(start, end)` for non-negative bounds: both are clamped to the length, and an
      end before the start gives the empty array. */
  function Slice<T>(a: seq<T>, start: nat, end: nat): (r: seq<T>)
    ensures start <= end <= |a| ==> r == a[start..end]
    ensures start <= |a| <= end ==> r == a[start..]
    ensures |a| <= start ==> r == []
  {
    var s := if start < |a| then start else |a|;
    var e := if end < |a| then end else |a|;
    if e <= s then [] else a[s..e]
  }

  /** `chunk` for a positive size (utils.js:193-195): `ceil(n / size)` chunks, chunk `i`
      being the slice of the array that starts at `i * size` and holds up to `size`
      elements. */
  function ChunkBy<T>(a: seq<T>, size: nat): seq<seq<T>>
    requires size >= 1
  {
    seq(CeilDiv(|a|, size), i requires 0 <= i => Slice(a, i * size, i * size + size))
  }

  /** `chunk($array, $size)` for any integer size (2 by default). A negative size gives a negative length,
      which `Array.from` reads as 0; size 0 gives `NaN` for an empty array (length 0) and
      `Infinity` otherwise, for which `Array.from` throws (`None`). */
  function Chunk<T>(a: seq<T>, size: int := 2): (r: Option<seq<seq<T>>>)
    ensures r.None? <==> size == 0 && |a| > 0
    ensures size <= 0 && r.Some? ==> r.value == []
  {
    if size >= 1 then Some(ChunkBy(a, size))
    else if size == 0 && |a| > 0 then None
    else Some([])
  }

  lemma DivPlusOne(x: nat, size: nat)
    requires size >= 1
    ensures (x + size) / size == x / size + 1
  {
    DivMod(x, size);
    MulSucc(x / size, size);
    DivModUnique(x + size, size, x / size + 1, x % size);
  }

  /** Chunking peels off the first `size` elements when there are more than `size`. */
  lemma ChunkByUnfold<T>(a: seq<T>, size: nat)
    requires size >= 1 && |a| > size
    ensures ChunkBy(a, size) == [a[..size]] + ChunkBy(a[size..], size)
  {
    var r, rest := ChunkBy(a, size), ChunkBy(a[size..], size);
    DivPlusOne(|a| - size + size - 1, size);
    assert |r| == 1 + |rest|;
    forall i | 0 <= i < |rest|
      ensures r[i + 1] == rest[i]
    {
      MulSucc(i, size);
      assert (i + 1) * size == i * size + size;
    }
    assert r[0] == a[..size];
  }

  /** At most `size` elements make a single chunk (none make no chunk). */
  lemma ChunkBySmall<T>(a: seq<T>, size: nat)
    requires size >= 1 && |a| <= size
    ensures |a| == 0 ==> ChunkBy(a, size) == []
    ensures |a| >= 1 ==> ChunkBy(a, size) == [a]
  {
    if |a| == 0 {
      DivModUnique(size - 1, size, 0, size - 1);
    } else {
      DivModUnique(|a| + size - 1, size, 1, |a| - 1);
    }
  }

  /** The chunks concatenate back to the array. */
  lemma {:induction false} ChunkFlatten<T>(a: seq<T>, size: nat)
    requires size >= 1
    ensures Flatten(ChunkBy(a, size)) == a
    decreases |a|
  {
    if |a| <= size {
      ChunkBySmall(a, size);
      if |a| > 0 {
        assert Flatten([a]) == a + Flatten([]);
      }
    } else {
      ChunkByUnfold(a, size);
      ChunkFlatten(a[size..], size);
      var r := ChunkBy(a, size);
      assert r[1..] == ChunkBy(a[size..], size);
      assert a == a[..size] + a[size..];
    }
  }

  /** `ceil(n / size)` chunks; every chunk but the last holds `size` elements and the last
      holds between 1 and `size`. */
  lemma {:induction false} ChunkShape<T>(a: seq<T>, size: nat)
    requires size >= 1
    ensures |ChunkBy(a, size)| == CeilDiv(|a|, size)
    ensures forall i :: 0 <= i < |ChunkBy(a, size)| - 1 ==> |ChunkBy(a, size)[i]| == size
    ensures |a| > 0 ==> 1 <= |ChunkBy(a, size)[|ChunkBy(a, size)| - 1]| <= size
    ensures |a| == 0 <==> |ChunkBy(a, size)| == 0
    decreases |a|
  {
    if |a| <= size {
      ChunkBySmall(a, size);
    } else {
      ChunkByUnfold(a, size);
      ChunkShape(a[size..], size);
    }
  }

  /** Element `i` of the array is element `i % size` of chunk `i / size`. */
  lemma ChunkAt<T>(a: seq<T>, size: nat, i: nat)
    requires size >= 1 && i < |a|
    ensures i / size < |ChunkBy(a, size)|
    ensures i % size < |ChunkBy(a, size)[i / size]|
    ensures ChunkBy(a, size)[i / size][i % size] == a[i]
  {
    var q := i / size;
    DivMod(i, size);
    MulSucc(q, size);
    DivLowerBound(|a| + size - 1, size, q + 1);
    assert ChunkBy(a, size)[q] == Slice(a, q * size, q * size + size);
  }

  /** `k * size <= m` bounds the quotient `m / size` from below by `k`. */
  lemma DivLowerBound(m: nat, size: nat, k: nat)
    requires size >= 1 && k * size <= m
    ensures k <= m / size
  {
    DivMod(m, size);
    if m / size < k {
      MulMonotone(m / size + 1, k, size);
      MulSucc(m / size, size);
    }
  }

  // ---------------------------------------------------------------------------------------
  // pattern

  /** `pattern` (utils.js:203-204): the pattern written `size` times in a row. */
  function Pattern<T>(size: nat, pat: seq<T>): seq<T> {
    if size == 0 then [] else Pattern(size - 1, pat) + pat
  }

  /** The result has `size * |pat|` elements and element `i` is `pat[i % |pat|]`. */
  lemma {:induction false} PatternAt<T>(size: nat, pat: seq<T>)
    ensures |Pattern(size, pat)| == size * |pat|
    ensures forall i :: 0 <= i < |Pattern(size, pat)| ==> Pattern(size, pat)[i] == pat[i % |pat|]
  {
    if size > 0 {
      PatternAt(size - 1, pat);
      var prev := Pattern(size - 1, pat);
      MulSucc(size - 1, |pat|);
      forall i | |prev| <= i < |Pattern(size, pat)|
        ensures Pattern(size, pat)[i] == pat[i % |pat|]
      {
        DivModUnique(i, |pat|, size - 1, i - |prev|);
      }
    }
  }

  /** `pattern` with the source's defaults: the pattern `[0]` and, unless given, size 1. The
      result is `size` zeros, so `pattern()` is `[0]`. */
  function ZeroPattern(size: nat := 1): (r: seq<int>)
    ensures |r| == size
    ensures forall i :: 0 <= i < size ==> r[i] == 0
  {
    PatternAt(size, [0]);
    Pattern(size, [0])
  }

  /** Chunking a pattern by the pattern's length gives the pattern back `size` times. */
  lemma {:induction false} ChunkPattern<T>(size: nat, pat: seq<T>)
    requires |pat| >= 1
    ensures ChunkBy(Pattern(size, pat), |pat|) == seq(size, _ => pat)
  {
    var r := ChunkBy(Pattern(size, pat), |pat|);
    PatternAt(size, pat);
    MulDivExact(size, |pat|);
    forall i | 0 <= i < size
      ensures r[i] == pat
    {
      MulMonotone(i + 1, size, |pat|);
      MulSucc(i, |pat|);
      var c := r[i];
      forall j | 0 <= j < |pat|
        ensures c[j] == pat[j]
      {
        DivModUnique(i * |pat| + j, |pat|, i, j);
      }
    }
  }

  lemma MulDivExact(n: nat, size: nat)
    requires size >= 1
    ensures CeilDiv(n * size, size) == n
  {
    if n == 0 {
      DivModUnique(size - 1, size, 0, size - 1);
    } else {
      MulSucc(n - 1, size);
      DivModUnique(n * size + size - 1, size, n, size - 1);
    }
  }

  // ---------------------------------------------------------------------------------------
  // uniques

  /** `[...new Set($arr)]`, walking the array left to right with the set built so far:
      an element joins the result the first time it is met. */
  function UniquesFrom<T(==)>(s: seq<T>, seen: set<T>): (r: seq<T>)
    ensures Elements(r) == Elements(s) - seen
    ensures NoDuplicates(r)
    ensures IsSubsequence(r, s)
    decreases |s|
  {
    if |s| == 0 then []
    else if s[0] in seen then UniquesFrom(s[1..], seen)
    else
      var rest := UniquesFrom(s[1..], seen + {s[0]});
      assert Elements(s) == {s[0]} + Elements(s[1..]);
      assert Elements([s[0]] + rest) == {s[0]} + Elements(rest);
      [s[0]] + rest
  }

  /** `uniques` keeps the elements and drops the repeats. */
  function Uniques<T(==)>(s: seq<T>): (r: seq<T>)
    ensures Elements(r) == Elements(s)
    ensures NoDuplicates(r)
    ensures IsSubsequence(r, s)
  {
    UniquesFrom(s, {})
  }

  /** The index of the first occurrence of `x` in `s`. */
  function FirstIndex<T(==)>(s: seq<T>, x: T): (i: nat)
    requires x in s
    ensures i < |s| && s[i] == x
    ensures forall j :: 0 <= j < i ==> s[j] != x
  {
    if s[0] == x then 0 else 1 + FirstIndex(s[1..], x)
  }

  /** `r` lists elements of `s` in the order of their first occurrence in `s`. */
  predicate FirstOccurrenceOrder<T(==)>(r: seq<T>, s: seq<T>) {
    forall i, j :: 0 <= i < j < |r| ==>
      r[i] in s && r[j] in s && FirstIndex(s, r[i]) < FirstIndex(s, r[j])
  }

  /** An order by first occurrence in `s[1..]`, of elements other than `s[0]`, is one in `s`
      too, and stays one with `s[0]` put in front. */
  lemma OrderShift<T>(rest: seq<T>, s: seq<T>)
    requires |s| > 0
    requires forall x :: x in rest ==> x in s[1..] && x != s[0]
    requires FirstOccurrenceOrder(rest, s[1..])
    ensures FirstOccurrenceOrder(rest, s)
    ensures FirstOccurrenceOrder([s[0]] + rest, s)
  {
    forall x | x in rest
      ensures x in s && FirstIndex(s, x) == 1 + FirstIndex(s[1..], x)
    {
    }
    var r := [s[0]] + rest;
    forall i, j | 0 <= i < j < |r|
      ensures r[i] in s && r[j] in s && FirstIndex(s, r[i]) < FirstIndex(s, r[j])
    {
      assert r[j] == rest[j - 1] && rest[j - 1] in rest;
      if i > 0 {
        assert r[i] == rest[i - 1] && rest[i - 1] in rest;
      }
    }
  }

  /** The result lists elements in the order of their first occurrence in the input. */
  lemma {:induction false} UniquesFromOrder<T>(s: seq<T>, seen: set<T>)
    ensures FirstOccurrenceOrder(UniquesFrom(s, seen), s)
    decreases |s|
  {
    if |s| > 0 {
      var seen' := if s[0] in seen then seen else seen + {s[0]};
      var rest := UniquesFrom(s[1..], seen');
      UniquesFromOrder(s[1..], seen');
      forall x | x in rest
        ensures x in s[1..] && x != s[0]
      {
        assert x in Elements(rest);
      }
      OrderShift(rest, s);
      if s[0] !in seen {
        assert UniquesFrom(s, seen) == [s[0]] + rest;
      } else {
        assert UniquesFrom(s, seen) == rest;
      }
    } else {
      assert UniquesFrom(s, seen) == [];
    }
  }

  /** `uniques` keeps every element at the place of its first occurrence. */
  lemma UniquesOrder<T>(s: seq<T>)
    ensures forall i, j :: 0 <= i < j < |Uniques(s)| ==>
      Uniques(s)[i] in s && Uniques(s)[j] in s &&
      FirstIndex(s, Uniques(s)[i]) < FirstIndex(s, Uniques(s)[j])
  {
    assert Uniques(s) == UniquesFrom(s, {});
    UniquesFromOrder(s, {});
  }

  /** An array without repeats, none of them already seen, is kept as it is. */
  lemma {:induction false} UniquesFromNoDuplicates<T>(s: seq<T>, seen: set<T>)
    requires NoDuplicates(s) && Elements(s) !! seen
    ensures UniquesFrom(s, seen) == s
    decreases |s|
  {
    if |s| > 0 {
      assert s[0] in Elements(s);
      assert Elements(s[1..]) !! seen + {s[0]} by {
        forall x | x in Elements(s[1..])
          ensures x != s[0]
        {
          var k :| 0 <= k < |s[1..]| && s[1..][k] == x;
          assert s[k + 1] == x;
        }
      }
      UniquesFromNoDuplicates(s[1..], seen + {s[0]});
    }
  }

  /** `uniques` is idempotent. */
  lemma UniquesIdempotent<T>(s: seq<T>)
    ensures Uniques(Uniques(s)) == Uniques(s)
  {
    UniquesFromNoDuplicates(Uniques(s), {});
  }

  // ---------------------------------------------------------------------------------------
  // zip and zipObject

  /** `zip($arr1, $arr2)`: each element of the first array paired with the slot of the same
      index in the second (`undefined` past its end). */
  function Zip<T, U>(a: seq<T>, b: seq<U>): seq<(T, Option<U>)> {
    seq(|a|, i requires 0 <= i < |a| => (a[i], At(b, i)))
  }

  /** Unzipping: the first components are the first array, and the second components are
      the second array's slots up to the first's length, `undefined` past the second's end. */
  lemma ZipUnzip<T, U>(a: seq<T>, b: seq<U>)
    ensures |Zip(a, b)| == |a|
    ensures seq(|a|, i requires 0 <= i < |a| => Zip(a, b)[i].0) == a
    ensures forall i :: 0 <= i < |a| && i < |b| ==> Zip(a, b)[i].1 == Some(b[i])
    ensures |a| <= |b| ==> seq(|a|, i requires 0 <= i < |a| => Zip(a, b)[i].1.value) == b[..|a|]
    ensures forall i :: |b| <= i < |a| ==> Zip(a, b)[i].1 == None
  {
  }

  /** The index of the last occurrence of `k` in `s`. */
  function LastIndex<T(==)>(s: seq<T>, k: T): (i: nat)
    requires k in s
    ensures i < |s| && s[i] == k
    ensures forall j :: i < j < |s| ==> s[j] != k
  {
    if s[|s| - 1] == k then |s| - 1
    else
      assert k in s[..|s| - 1] by {
        var j :| 0 <= j < |s| && s[j] == k;
        assert s[..|s| - 1][j] == k;
      }
      LastIndex(s[..|s| - 1], k)
  }

  /** `zipObject($props, $values)`: `obj[key] = $values[index]` for each key in order, so a
      repeated key keeps the value of its last index; keys past the values get `undefined`.
      (Keys are modelled as values of `K`, not as JavaScript property-name strings.) */
  function ZipObject<K(==), V>(props: seq<K>, values: seq<V>): (m: map<K, Option<V>>)
    ensures m.Keys == Elements(props)
    ensures forall k :: k in m ==> m[k] == At(values, LastIndex(props, k))
    decreases |props|
  {
    if |props| == 0 then map[]
    else
      var n := |props| - 1;
      var prev := ZipObject(props[..n], values);
      assert Elements(props) == Elements(props[..n]) + {props[n]} by {
        assert props == props[..n] + [props[n]];
      }
      prev[props[n] := At(values, n)]
  }

  /** Values beyond the keys are ignored. */
  lemma ZipObjectIgnoresExtra<K, V>(props: seq<K>, values: seq<V>)
    requires |values| >= |props|
    ensures ZipObject(props, values) == ZipObject(props, values[..|props|])
  {
    var m, m' := ZipObject(props, values), ZipObject(props, values[..|props|]);
    assert m.Keys == m'.Keys;
    forall k | k in m
      ensures m[k] == m'[k]
    {
    }
  }

  /** The object agrees with `zip`: each key holds the value of its last pair. */
  lemma ZipObjectOfZip<K, V>(props: seq<K>, values: seq<V>)
    ensures forall k :: k in ZipObject(props, values) ==>
      ZipObject(props, values)[k] == Zip(props, values)[LastIndex(props, k)].1
  {
  }

  // ---------------------------------------------------------------------------------------
  // exclude

  /** `exclude` (utils.js:468-469): the elements of the array that do not occur in the
      exclusion list, in their order. */
  function Exclude<T(==)>(a: seq<T>, items: seq<T>): (r: seq<T>)
    ensures forall x :: x in r ==> x in a && x !in items
    ensures forall x :: x in a && x !in items ==> multiset(r)[x] == multiset(a)[x]
    ensures IsSubsequence(r, a)
    decreases |a|
  {
    if |a| == 0 then []
    else
      var rest := Exclude(a[1..], items);
      assert a == [a[0]] + a[1..];
      assert multiset(a) == multiset{a[0]} + multiset(a[1..]);
      if a[0] in items then rest
      else
        var r := [a[0]] + rest;
        assert r[1..] == rest;
        assert multiset(r) == multiset{a[0]} + multiset(rest);
        r
  }

  /** Excluding nothing keeps the array, and excluding twice is excluding once. */
  lemma {:induction false} ExcludeNothing<T>(a: seq<T>, items: seq<T>)
    requires forall x :: x in a ==> x !in items
    ensures Exclude(a, items) == a
    decreases |a|
  {
    if |a| > 0 {
      ExcludeNothing(a[1..], items);
    }
  }

  lemma ExcludeIdempotent<T>(a: seq<T>, items: seq<T>)
    ensures Exclude(Exclude(a, items), items) == Exclude(a, items)
  {
    ExcludeNothing(Exclude(a, items), items);
  }

  // ---------------------------------------------------------------------------------------
  // combine

  /** The prefix `x` followed by each element of `b` in turn. */
  function AppendEach<T>(x: seq<T>, b: seq<T>): (r: seq<seq<T>>)
    ensures |r| == |b|
    ensures forall j :: 0 <= j < |b| ==> r[j] == x + [b[j]]
  {
    seq(|b|, j requires 0 <= j < |b| => x + [b[j]])
  }

  /** One step of the reduction in `combine` (utils.js:351): every prefix of `acc`, in order,
      extended by every element of `b`, in order. */
  function Extend<T>(acc: seq<seq<T>>, b: seq<T>): seq<seq<T>> {
    if |acc| == 0 then [] else AppendEach(acc[0], b) + Extend(acc[1..], b)
  }

  /** The reduction of `combine` from the accumulator `acc`. */
  function CombineFrom<T>(acc: seq<seq<T>>, arrs: seq<seq<T>>): seq<seq<T>>
    decreases |arrs|
  {
    if |arrs| == 0 then acc else CombineFrom(Extend(acc, arrs[0]), arrs[1..])
  }

  /** `combine` (utils.js:350-351): the reduction over the arrays, starting from the one
      empty tuple. */
  function Combine<T>(arrs: seq<seq<T>>): seq<seq<T>> {
    CombineFrom([[]], arrs)
  }

  /** The product of the lengths of the arrays. */
  function LengthProduct<T>(arrs: seq<seq<T>>): nat {
    if |arrs| == 0 then 1 else |arrs[0]| * LengthProduct(arrs[1..])
  }

  /** A tuple picking, at every position `j`, an element of `arrs[j]`. */
  ghost predicate IsPick<T>(c: seq<T>, arrs: seq<seq<T>>) {
    |c| == |arrs| && forall j :: 0 <= j < |c| ==> c[j] in arrs[j]
  }

  lemma {:induction false} ExtendLength<T>(acc: seq<seq<T>>, b: seq<T>)
    ensures |Extend(acc, b)| == |acc| * |b|
    decreases |acc|
  {
    if |acc| > 0 {
      ExtendLength(acc[1..], b);
      MulSucc(|acc| - 1, |b|);
    }
  }

  lemma {:induction false} ExtendMembers<T>(acc: seq<seq<T>>, b: seq<T>, c: seq<T>)
    ensures c in Extend(acc, b) <==> |c| >= 1 && c[..|c| - 1] in acc && c[|c| - 1] in b
    decreases |acc|
  {
    if |acc| > 0 {
      ExtendMembers(acc[1..], b, c);
      var first := AppendEach(acc[0], b);
      assert Extend(acc, b) == first + Extend(acc[1..], b);
      if c in first {
        var j :| 0 <= j < |b| && first[j] == c;
        assert c[..|c| - 1] == acc[0];
      }
      if |c| >= 1 && c[..|c| - 1] == acc[0] && c[|c| - 1] in b {
        var j :| 0 <= j < |b| && b[j] == c[|c| - 1];
        assert c == acc[0] + [b[j]];
        assert first[j] == c;
      }
      assert acc == [acc[0]] + acc[1..];
    }
  }

  lemma {:induction false} CombineFromLength<T>(acc: seq<seq<T>>, arrs: seq<seq<T>>)
    ensures |CombineFrom(acc, arrs)| == |acc| * LengthProduct(arrs)
    decreases |arrs|
  {
    if |arrs| > 0 {
      ExtendLength(acc, arrs[0]);
      CombineFromLength(Extend(acc, arrs[0]), arrs[1..]);
      MulAssoc(|acc|, |arrs[0]|, LengthProduct(arrs[1..]));
    }
  }

  lemma MulAssoc(a: nat, b: nat, c: nat)
    ensures (a * b) * c == a * (b * c)
  {
  }

  /** A pick from `arrs` is a first element from `arrs[0]` followed by a pick from the rest. */
  lemma PickCons<T>(c: seq<T>, arrs: seq<seq<T>>)
    requires |c| >= 1 && |arrs| >= 1
    ensures IsPick(c, arrs) <==> c[0] in arrs[0] && IsPick(c[1..], arrs[1..])
  {
    if c[0] in arrs[0] && IsPick(c[1..], arrs[1..]) {
      forall j | 0 <= j < |c|
        ensures c[j] in arrs[j]
      {
        if j > 0 {
          assert c[j] == c[1..][j - 1];
        }
      }
    }
    if IsPick(c, arrs) {
      forall j | 0 <= j < |c| - 1
        ensures c[1..][j] in arrs[1..][j]
      {
        assert c[1..][j] == c[j + 1];
      }
    }
  }

  /** Extending `m`-element prefixes gives `m + 1`-element ones. */
  lemma ExtendLengths<T>(acc: seq<seq<T>>, b: seq<T>, m: nat)
    requires forall x :: x in acc ==> |x| == m
    ensures forall x :: x in Extend(acc, b) ==> |x| == m + 1
  {
    forall x | x in Extend(acc, b)
      ensures |x| == m + 1
    {
      ExtendMembers(acc, b, x);
    }
  }

  /** The first `m + 1` elements of `c` are an extended prefix exactly when the first `m`
      are a prefix and element `m` comes from `b`. */
  lemma ExtendPrefix<T>(acc: seq<seq<T>>, b: seq<T>, m: nat, c: seq<T>)
    requires |c| >= m + 1
    ensures c[..m + 1] in Extend(acc, b) <==> c[..m] in acc && c[m] in b
  {
    ExtendMembers(acc, b, c[..m + 1]);
    assert c[..m + 1][..m] == c[..m];
  }

  /** Membership in the reduction from an accumulator of `m`-element prefixes: a prefix from
      the accumulator followed by one pick from each remaining array. */
  lemma {:induction false} CombineFromMembers<T>(acc: seq<seq<T>>, arrs: seq<seq<T>>, m: nat, c: seq<T>)
    requires forall x :: x in acc ==> |x| == m
    ensures c in CombineFrom(acc, arrs) <==> |c| >= m && c[..m] in acc && IsPick(c[m..], arrs)
    decreases |arrs|
  {
    if |arrs| == 0 {
      if c in acc || |c| == m {
        assert c[..m] == c;
      }
    } else {
      var acc' := Extend(acc, arrs[0]);
      ExtendLengths(acc, arrs[0], m);
      CombineFromMembers(acc', arrs[1..], m + 1, c);
      assert CombineFrom(acc, arrs) == CombineFrom(acc', arrs[1..]);
      if |c| >= m + 1 {
        ExtendPrefix(acc, arrs[0], m, c);
        assert c[m + 1..] == c[m..][1..];
        PickCons(c[m..], arrs);
      }
    }
  }

  /** Element `i * |b| + j` of one reduction step is prefix `i` extended with `b[j]`: the
      prefixes in order, each followed by every element of `b` in order. */
  lemma {:induction false} ExtendAt<T>(acc: seq<seq<T>>, b: seq<T>, i: nat, j: nat)
    requires i < |acc| && j < |b|
    ensures i * |b| + j < |Extend(acc, b)|
    ensures Extend(acc, b)[i * |b| + j] == acc[i] + [b[j]]
    decreases |acc|
  {
    ExtendLength(acc, b);
    var first, rest := AppendEach(acc[0], b), Extend(acc[1..], b);
    assert Extend(acc, b) == first + rest;
    if i == 0 {
      assert (first + rest)[j] == first[j];
    } else {
      ExtendAt(acc[1..], b, i - 1, j);
      MulSucc(i - 1, |b|);
      assert (first + rest)[i * |b| + j] == rest[(i - 1) * |b| + j];
    }
  }

  /** The reduction is a left fold: one more array extends the result by one step. */
  lemma {:induction false} CombineFromSnoc<T>(acc: seq<seq<T>>, arrs: seq<seq<T>>, b: seq<T>)
    ensures CombineFrom(acc, arrs + [b]) == Extend(CombineFrom(acc, arrs), b)
    decreases |arrs|
  {
    var arrs' := arrs + [b];
    if |arrs| == 0 {
      assert arrs'[1..] == [];
    } else {
      assert arrs'[0] == arrs[0];
      assert arrs'[1..] == arrs[1..] + [b];
      CombineFromSnoc(Extend(acc, arrs[0]), arrs[1..], b);
    }
  }

  /** The order of `combine`: with no arrays there is the one empty tuple, and appending an
      array `b` replaces tuple `i` by the tuples `i * |b| + j`, tuple `i` followed by `b[j]`.
      This fixes every tuple's position, so also how often each one occurs. */
  lemma CombineOrder<T>(arrs: seq<seq<T>>, b: seq<T>, i: nat, j: nat)
    requires i < |Combine(arrs)| && j < |b|
    ensures Combine<T>([]) == [[]]
    ensures |Combine(arrs + [b])| == |Combine(arrs)| * |b|
    ensures i * |b| + j < |Combine(arrs + [b])|
    ensures Combine(arrs + [b])[i * |b| + j] == Combine(arrs)[i] + [b[j]]
  {
    CombineFromSnoc([[]], arrs, b);
    ExtendLength(Combine(arrs), b);
    ExtendAt(Combine(arrs), b, i, j);
  }

  lemma AppendTwo<T>(x: seq<T>, y: T, z: T)
    ensures AppendEach(x, [y, z]) == [x + [y], x + [z]]
  {
    var r := AppendEach(x, [y, z]);
    assert r[0] == x + [y] && r[1] == x + [z];
  }

  /** The documented example: `combine([[1, 2], [4, 5]])`. */
  lemma CombineExample()
    ensures Combine([[1, 2], [4, 5]]) == [[1, 4], [1, 5], [2, 4], [2, 5]]
  {
    var ab: seq<seq<int>> := [[1, 2], [4, 5]];
    assert |ab[1..][1..]| == 0 && Combine(ab) == CombineFrom(Extend([[]], ab[0]), ab[1..]);
    var one: seq<seq<int>> := [[1], [2]];
    ExtendCons([], [], [1, 2]);
    AppendTwo([], 1, 2);
    assert [] + [1] == [1] && [] + [2] == [2];
    ExtendCons([1], [[2]], [4, 5]);
    ExtendCons([2], [], [4, 5]);
    AppendTwo([1], 4, 5);
    AppendTwo([2], 4, 5);
    assert [1] + [4] == [1, 4] && [1] + [5] == [1, 5];
    assert [2] + [4] == [2, 4] && [2] + [5] == [2, 5];
    var two := Extend(one, [4, 5]);
    assert Extend([[]], [1, 2]) == one;
    assert two == [[1, 4], [1, 5], [2, 4], [2, 5]];
    assert ab[1..] == [[4, 5]];
    assert CombineFrom(one, [[4, 5]]) == CombineFrom(two, []);
  }

  lemma ExtendCons<T>(x: seq<T>, rest: seq<seq<T>>, b: seq<T>)
    ensures Extend([x] + rest, b) == AppendEach(x, b) + Extend(rest, b)
  {
    assert ([x] + rest)[1..] == rest;
  }

  /** `combine` yields `|arrs[0]| * |arrs[1]| * ...` tuples, and a tuple is among them
      exactly when it picks one element from each array in turn. */
  lemma CombineContract<T>(arrs: seq<seq<T>>, c: seq<T>)
    ensures |Combine(arrs)| == LengthProduct(arrs)
    ensures c in Combine(arrs) <==> IsPick(c, arrs)
  {
    CombineFromLength([[]], arrs);
    CombineFromMembers([[]], arrs, 0, c);
    assert c[..0] == [] && c[0..] == c;
  }
}

=== FILE: calendar.dfy ===
/** The month view of calendiario.js: the cell sequence the page fills its list with — the
    seven weekday initials, one blank per weekday before the first of the month, then the
    day numbers. The first weekday (0 for Sunday, as `getDay` counts) and the month length
    come from `Date` lookups and are parameters here. */
module Calendar {
  import opened Text
  import opened Arrays
  import opened Ranges

  /** One entry of the `daysOfTheMonth` array: a weekday initial, a blank `' '`, or a day
      number. */
  datatype Cell = Header(initial: string) | Blank | Day(day: nat)

  /** `weekDays`, Sunday first. */
  const WeekDays: seq<string> := ["D", "L", "M", "X", "J", "V", "S"]

  /** What a cell puts into its list item: the initial itself, the blank, or `String(d)`,
      the canonical numeral of the day (no leading zero, so `7` shows as `"7"`). */
  function Content(c: Cell): (s: string)
    ensures c.Header? ==> s == c.initial
    ensures c.Blank? ==> s == " "
    ensures c.Day? ==> IsDigitRun(s) && AllDigits(s, 10) && ValueOf(s, 10) == c.day
    ensures c.Day? ==> |s| == 1 || s[0] != '0'
  {
    match c
    case Header(initial) => initial
    case Blank => " "
    case Day(d) => ValueOfToBase(d, 10); DecimalIsRun(d); ToBaseNoLeadingZero(d, 10); Decimal(d)
  }

  function Headers(): seq<Cell> {
    seq(7, j requires 0 <= j < 7 => Header(WeekDays[j]))
  }

  /** `[...' '.repeat(n)]`: `n` single-space strings. */
  function EmptyDays(n: nat): seq<Cell> {
    seq(n, _ => Blank)
  }

  /** The days `1..n`. */
  function Days(n: nat): seq<Cell> {
    seq(n, j requires 0 <= j => Day(j + 1))
  }

  /** `[...weekDays, ...emptyDays, ...firstWeek, ...daysOfTheMonth]`, with `firstWeek`
      never filled. */
  function MonthCells(firstWeekday: nat, daysInMonth: nat): (cells: seq<Cell>)
    ensures |cells| == 7 + firstWeekday + daysInMonth
    ensures forall j :: 0 <= j < 7 ==> cells[j] == Header(WeekDays[j])
    ensures forall j :: 7 <= j < 7 + firstWeekday ==> cells[j] == Blank
    ensures forall j :: 7 + firstWeekday <= j < |cells| ==> cells[j] == Day(j - 6 - firstWeekday)
  {
    Headers() + EmptyDays(firstWeekday) + [] + Days(daysInMonth)
  }

  /** The construction as the page performs it: the counting loop pushes the days one by
      one, then the header, the blanks and the (empty) first week are spread in front. */
  method BuildMonth(firstWeekday: nat, daysInMonth: nat) returns (cells: seq<Cell>)
    ensures cells == MonthCells(firstWeekday, daysInMonth)
  {
    var daysOfTheMonth: seq<Cell> := [];
    var firstWeek: seq<Cell> := [];
    var i := 1;
    while i <= daysInMonth
      invariant 1 <= i <= daysInMonth + 1
      invariant daysOfTheMonth == Days(i - 1)
    {
      daysOfTheMonth := daysOfTheMonth + [Day(i)];
      i := i + 1;
    }
    var emptyDays := EmptyDays(firstWeekday);
    cells := Headers() + emptyDays + firstWeek + daysOfTheMonth;
  }

  /** Day `d` sits at index `7 + firstWeekday + d - 1`. */
  lemma DayIndex(firstWeekday: nat, daysInMonth: nat, d: nat)
    requires 1 <= d <= daysInMonth
    ensures MonthCells(firstWeekday, daysInMonth)[6 + firstWeekday + d] == Day(d)
  {
    var cells := MonthCells(firstWeekday, daysInMonth);
    assert cells[6 + firstWeekday + d] == Day(6 + firstWeekday + d - 6 - firstWeekday);
  }

  /** The day numbers of a cell sequence, in order. */
  function DayNumbers(cells: seq<Cell>): (ds: seq<int>)
    ensures |ds| <= |cells|
  {
    if |cells| == 0 then []
    else if cells[0].Day? then [cells[0].day] + DayNumbers(cells[1..])
    else DayNumbers(cells[1..])
  }

  lemma {:induction false} DayNumbersAppend(a: seq<Cell>, b: seq<Cell>)
    ensures DayNumbers(a + b) == DayNumbers(a) + DayNumbers(b)
    decreases |a|
  {
    if |a| > 0 {
      assert (a + b)[0] == a[0];
      assert (a + b)[1..] == a[1..] + b;
      DayNumbersAppend(a[1..], b);
    } else {
      assert a + b == b;
    }
  }

  lemma {:induction false} NoDayNumbers(cells: seq<Cell>)
    requires forall j :: 0 <= j < |cells| ==> !cells[j].Day?
    ensures DayNumbers(cells) == []
    decreases |cells|
  {
    if |cells| > 0 {
      NoDayNumbers(cells[1..]);
    }
  }

  lemma {:induction false} DayNumbersOfDays(n: nat)
    ensures DayNumbers(Days(n)) == RangeWithin(1, n, 1)
  {
    if n >= 1 {
      StepOneAgrees(1, n);
      DaysFrom(1, n);
      assert Days(n) == DaysSpan(1, n);
    } else {
      assert Days(n) == [];
    }
  }

  /** The days `from..to`. */
  function DaysSpan(from: nat, to: nat): seq<Cell>
    decreases if from > to then 0 else to - from + 1
  {
    if from > to then [] else [Day(from)] + DaysSpan(from + 1, to)
  }

  lemma {:induction false} DaysFrom(from: nat, to: nat)
    requires 1 <= from
    ensures |DaysSpan(from, to)| == if from > to then 0 else to - from + 1
    ensures forall j :: 0 <= j < |DaysSpan(from, to)| ==> DaysSpan(from, to)[j] == Day(from + j)
    ensures DayNumbers(DaysSpan(from, to)) == RangeWithin(from, to, 1)
    decreases if from > to then 0 else to - from + 1
  {
    if from <= to {
      DaysFrom(from + 1, to);
      var s := DaysSpan(from, to);
      assert s[1..] == DaysSpan(from + 1, to);
    }
  }

  /** The day numbers of the month view are `1..daysInMonth`, ascending with no gap — the
      list `range(1, daysInMonth)` builds for a non-empty month. */
  lemma MonthDays(firstWeekday: nat, daysInMonth: nat)
    ensures DayNumbers(MonthCells(firstWeekday, daysInMonth)) == RangeWithin(1, daysInMonth, 1)
    ensures daysInMonth >= 1 ==>
      DayNumbers(MonthCells(firstWeekday, daysInMonth)) == Range(1, daysInMonth, 1)
  {
    var front := Headers() + EmptyDays(firstWeekday);
    assert MonthCells(firstWeekday, daysInMonth) == front + Days(daysInMonth);
    DayNumbersAppend(front, Days(daysInMonth));
    NoDayNumbers(front);
    DayNumbersOfDays(daysInMonth);
    if daysInMonth >= 1 {
      StepOneAgrees(1, daysInMonth);
    }
  }

  /** Laid out seven to a row, the first row is the header, and day `d` falls in the
      column of its weekday: the column under the initial of weekday
      `(firstWeekday + d - 1) % 7`. */
  lemma DayColumn(firstWeekday: nat, daysInMonth: nat, d: nat)
    requires 1 <= d <= daysInMonth
    ensures ChunkBy(MonthCells(firstWeekday, daysInMonth), 7)[0] == Headers()
    ensures var rows, col := ChunkBy(MonthCells(firstWeekday, daysInMonth), 7), (firstWeekday + d - 1) % 7;
      (6 + firstWeekday + d) / 7 < |rows| &&
      col < |rows[(6 + firstWeekday + d) / 7]| &&
      rows[(6 + firstWeekday + d) / 7][col] == Day(d) &&
      rows[0][col] == Header(WeekDays[col])
  {
    var cells := MonthCells(firstWeekday, daysInMonth);
    var i := 6 + firstWeekday + d;
    ChunkAt(cells, 7, i);
    DayIndex(firstWeekday, daysInMonth, d);
    assert i % 7 == (firstWeekday + d - 1) % 7;
    assert ChunkBy(cells, 7)[0] == Slice(cells, 0, 7) == cells[..7];
  }

  /** A month of 28 to 31 days starting on any weekday takes five to seven rows of seven
      cells, the header row included; every row but the last is full. */
  lemma MonthRows(firstWeekday: nat, daysInMonth: nat)
    requires firstWeekday <= 6 && 28 <= daysInMonth <= 31
    ensures 5 <= |ChunkBy(MonthCells(firstWeekday, daysInMonth), 7)| <= 7
    ensures forall r :: 0 <= r < |ChunkBy(MonthCells(firstWeekday, daysInMonth), 7)| - 1 ==>
      |ChunkBy(MonthCells(firstWeekday, daysInMonth), 7)[r]| == 7
  {
    ChunkShape(MonthCells(firstWeekday, daysInMonth), 7);
  }
}

=== FILE: colors.dfy ===
/** The HEX colour codec of utils.js: `RGBtoHEX` packs three channels into a 24-bit number
    and writes it as six lower-case hex digits; `HEXToRGB` reads a 3-, 6- or 8-digit hex
    colour (with or without `#`) back and renders it as `rgb(R, G, B)` or `rgba(R, G, B, A)`.
    JavaScript's shifts and masks are written as division and remainder on naturals. */
module Colors {
  import opened Text

  /** A colour channel: an integer in 0..255. */
  type Byte = x: int | 0 <= x < 256

  /** `>>>` and `&` first reduce their operand modulo 2^32 (ToUint32 / ToInt32). */
  const TwoPow32: nat := 0x1_0000_0000

  /** `RGBtoHEX(r, g, b)`: `(r << 16) + (g << 8) + b` in base 16, left-padded with `0` to six
      digits. The result is exactly six lower-case hex digits whose value is the packed colour. */
  function RgbToHex(r: Byte, g: Byte, b: Byte): (h: string)
    ensures |h| == 6
    ensures AllLowerDigits(h, 16)
    ensures ValueOf(h, 16) == r * 65536 + g * 256 + b
  {
    var packed := r * 65536 + g * 256 + b;
    var digits := LowerHex(packed);
    ToBaseLength(packed, 16, 6);
    ValueOfToBase(packed, 16);
    var h := PadStart(digits, 6, '0');
    assert h == h[..|h| - |digits|] + digits;
    ValueOfLeadingZeros(h[..|h| - |digits|], digits, 16);
    h
  }

  /** The hex digits of `$hex` once an optional leading `#` is sliced off. */
  function HexBody(s: string): (h: string)
    ensures |s| > 0 && s[0] == '#' ==> h == s[1..]
    ensures !(|s| > 0 && s[0] == '#') ==> h == s
  {
    if |s| > 0 && s[0] == '#' then s[1..] else s
  }

  /** The inputs modelled: after the optional `#`, only hex digits (either case), and few
      enough of them (at most 13) that `parseInt` reads the value exactly. */
  predicate IsHexColor(s: string) {
    AllDigits(HexBody(s), 16) && |HexBody(s)| <= 13
  }

  /** Shorthand notation: a 3-digit body has each digit doubled; other bodies are kept. */
  function Expand(h: string): (e: string)
    ensures |h| == 3 ==> |e| == 6 && forall i :: 0 <= i < 6 ==> e[i] == h[i / 2]
    ensures |h| != 3 ==> e == h
  {
    if |h| == 3 then [h[0], h[0], h[1], h[1], h[2], h[2]] else h
  }

  /** The channels `HEXToRGB` extracts before rendering them. */
  datatype Channels = Rgb(r: nat, g: nat, b: nat) | Rgba(r: nat, g: nat, b: nat, a: nat)

  /** The channel extraction of `HEXToRGB`: `parseInt(h, 16)` (an empty body parses to NaN,
      which the shifts and masks treat as 0, the same as the value of the empty numeral),
      reduced modulo 2^32 by `>>>`/`&`, then cut into bytes; an 8-digit body is read as RGBA. */
  function ParseChannels(s: string): (c: Channels)
    requires IsHexColor(s)
    ensures c.Rgba? <==> |HexBody(s)| == 8
    ensures c.g < 256 && c.b < 256 && (c.Rgba? ==> c.a < 256 && c.r < 256)
  {
    var h := HexBody(s);
    var e := Expand(h);
    var u := ValueOf(e, 16) % TwoPow32;
    if |h| == 8 then Rgba(u / 0x100_0000, (u / 0x1_0000) % 256, (u / 0x100) % 256, u % 256)
    else Rgb(u / 0x1_0000, (u / 0x100) % 256, u % 256)
  }

  /** The string `HEXToRGB` returns for the channels. */
  function Render(c: Channels): string {
    match c
    case Rgb(r, g, b) => "rgb(" + Decimal(r) + ", " + Decimal(g) + ", " + Decimal(b) + ")"
    case Rgba(r, g, b, a) =>
      "rgba(" + Decimal(r) + ", " + Decimal(g) + ", " + Decimal(b) + ", " + Decimal(a) + ")"
  }

  /** `HEXToRGB($hex)`. */
  function HexToRgb(s: string): string
    requires IsHexColor(s)
  {
    Render(ParseChannels(s))
  }

  /** The byte written by the two hex digits at `h[i]` and `h[i + 1]`. */
  function PairAt(h: string, i: nat): (v: nat)
    requires i + 2 <= |h| && AllDigits(h, 16)
    ensures v < 256
  {
    var p := h[i..i + 2];
    ValueOfBound(p, 16);
    ValueOf(p, 16)
  }

  /** Appending two hex digits shifts the value left by one byte. */
  lemma ValueOfAppendPair(x: string, y: string)
    requires AllDigits(x, 16) && AllDigits(y, 16) && |y| == 2
    ensures AllDigits(x + y, 16)
    ensures ValueOf(x + y, 16) == ValueOf(x, 16) * 256 + ValueOf(y, 16)
  {
    assert x + y == (x + [y[0]]) + [y[1]];
    ValueOfSnoc(x, y[0], 16);
    ValueOfSnoc(x + [y[0]], y[1], 16);
    ValueOfSnoc([], y[0], 16);
    ValueOfSnoc([y[0]], y[1], 16);
    assert [] + [y[0]] == [y[0]];
    assert [y[0]] + [y[1]] == y;
  }

  /** Division and remainder by 256 recover the two parts of `q * 256 + d`. */
  lemma SplitByte(v: nat, q: nat, d: nat)
    requires d < 256 && v == q * 256 + d
    ensures v / 256 == q && v % 256 == d
  {
  }

  /** A numeral of at most 8 hex digits is left unchanged by the reduction modulo 2^32. */
  lemma Below32Bits(h: string)
    requires AllDigits(h, 16) && |h| <= 8
    ensures ValueOf(h, 16) < TwoPow32
    ensures ValueOf(h, 16) % TwoPow32 == ValueOf(h, 16)
  {
    ValueOfBound(h, 16);
    PowMonotone(16, |h|, 8);
    assert Pow(16, 8) == TwoPow32;
  }

  lemma {:induction false} PowMonotone(b: nat, i: nat, j: nat)
    requires b >= 1 && i <= j
    ensures Pow(b, i) <= Pow(b, j)
    decreases j
  {
    if i < j {
      PowMonotone(b, i, j - 1);
      MulMonotone(1, b, Pow(b, j - 1));
    }
  }

  /** A six-digit body is read as three bytes, two digits each, red first. */
  lemma {:induction false} ParseSixDigits(s: string)
    requires IsHexColor(s) && |HexBody(s)| == 6
    ensures ParseChannels(s) == Rgb(PairAt(HexBody(s), 0), PairAt(HexBody(s), 2), PairAt(HexBody(s), 4))
    ensures ValueOf(HexBody(s), 16) == PairAt(HexBody(s), 0) * 65536 + PairAt(HexBody(s), 2) * 256 + PairAt(HexBody(s), 4)
  {
    var h := HexBody(s);
    var r, g, b := PairAt(h, 0), PairAt(h, 2), PairAt(h, 4);
    assert h == h[0..2] + h[2..4] + h[4..6];
    ValueOfAppendPair(h[0..2], h[2..4]);
    ValueOfAppendPair(h[0..2] + h[2..4], h[4..6]);
    var v := ValueOf(h, 16);
    assert v == (r * 256 + g) * 256 + b;
    Below32Bits(h);
    SplitByte(v, r * 256 + g, b);
    SplitByte(r * 256 + g, r, g);
    assert v / 0x1_0000 == (v / 256) / 256;
    assert ParseChannels(s) == Rgb(v / 0x1_0000, (v / 0x100) % 256, v % 256);
  }

  /** An eight-digit body is read as four bytes, the alpha channel being the low byte. */
  lemma {:induction false} ParseEightDigits(s: string)
    requires IsHexColor(s) && |HexBody(s)| == 8
    ensures ParseChannels(s)
         == Rgba(PairAt(HexBody(s), 0), PairAt(HexBody(s), 2), PairAt(HexBody(s), 4), PairAt(HexBody(s), 6))
    ensures ValueOf(HexBody(s), 16)
         == PairAt(HexBody(s), 0) * 0x100_0000 + PairAt(HexBody(s), 2) * 0x1_0000
            + PairAt(HexBody(s), 4) * 0x100 + PairAt(HexBody(s), 6)
  {
    var h := HexBody(s);
    var r, g, b, a := PairAt(h, 0), PairAt(h, 2), PairAt(h, 4), PairAt(h, 6);
    assert h == h[0..2] + h[2..4] + h[4..6] + h[6..8];
    ValueOfAppendPair(h[0..2], h[2..4]);
    ValueOfAppendPair(h[0..2] + h[2..4], h[4..6]);
    ValueOfAppendPair(h[0..2] + h[2..4] + h[4..6], h[6..8]);
    var v := ValueOf(h, 16);
    var rg := r * 256 + g;
    var rgb := rg * 256 + b;
    assert v == rgb * 256 + a;
    Below32Bits(h);
    SplitByte(v, rgb, a);
    SplitByte(rgb, rg, b);
    SplitByte(rg, r, g);
    assert v / 0x1_0000 == rgb / 256;
    assert v / 0x100_0000 == rg / 256;
    assert ParseChannels(s) == Rgba(v / 0x100_0000, (v / 0x1_0000) % 256, (v / 0x100) % 256, v % 256);
  }

  /** Shorthand notation: a 3-digit colour reads as the 6-digit colour with every digit
      doubled, so each channel is 17 times its digit. */
  lemma {:induction false} ShorthandDoubles(s: string)
    requires IsHexColor(s) && |HexBody(s)| == 3
    ensures IsHexColor(Expand(HexBody(s)))
    ensures HexToRgb(s) == HexToRgb(Expand(HexBody(s)))
    ensures ParseChannels(s)
         == Rgb(17 * CharValue(HexBody(s)[0]), 17 * CharValue(HexBody(s)[1]), 17 * CharValue(HexBody(s)[2]))
  {
    var h := HexBody(s);
    var e := Expand(h);
    assert HexBody(e) == e;
    assert ParseChannels(s) == ParseChannels(e);
    ParseSixDigits(e);
    forall i | 0 <= i < 3
      ensures PairAt(e, 2 * i) == 17 * CharValue(h[i])
    {
      var p := e[2 * i..2 * i + 2];
      assert p == [] + [h[i]] + [h[i]];
      ValueOfSnoc([], h[i], 16);
      ValueOfSnoc([h[i]], h[i], 16);
    }
  }

  /** Two numerals of the same length in lower-case hex with the same value are the same. */
  lemma {:induction false} LowerHexInjective(x: string, y: string)
    requires AllLowerDigits(x, 16) && AllLowerDigits(y, 16) && |x| == |y|
    requires ValueOf(x, 16) == ValueOf(y, 16)
    ensures x == y
    decreases |x|
  {
    if |x| > 0 {
      var x', y' := x[..|x| - 1], y[..|y| - 1];
      var c, d := x[|x| - 1], y[|y| - 1];
      assert x == x' + [c] && y == y' + [d];
      ValueOfSnoc(x', c, 16);
      ValueOfSnoc(y', d, 16);
      DivModUnique(ValueOf(x, 16), 16, ValueOf(x', 16), CharValue(c));
      DivModUnique(ValueOf(y, 16), 16, ValueOf(y', 16), CharValue(d));
      DigitCharOf(c);
      DigitCharOf(d);
      LowerHexInjective(x', y');
    }
  }

  /** The leading `#` is optional: `HEXToRGB` reads `#h` exactly as it reads `h`. */
  lemma HashIgnored(h: string)
    requires IsHexColor(h) && (|h| == 0 || h[0] != '#')
    ensures IsHexColor("#" + h)
    ensures ParseChannels("#" + h) == ParseChannels(h)
    ensures HexToRgb("#" + h) == HexToRgb(h)
  {
    assert HexBody("#" + h) == h == HexBody(h);
  }

  /** `HEXToRGB` reads back the channels `RGBtoHEX` packed. */
  lemma RgbHexChannels(r: Byte, g: Byte, b: Byte)
    ensures IsHexColor(RgbToHex(r, g, b))
    ensures ParseChannels(RgbToHex(r, g, b)) == Rgb(r, g, b)
  {
    var h := RgbToHex(r, g, b);
    assert HexBody(h) == h;
    ParseSixDigits(h);
    ThreeBytesUnique(PairAt(h, 0), PairAt(h, 2), PairAt(h, 4), r, g, b);
  }

  /** Three bytes are determined by the 24-bit number they pack into. */
  lemma ThreeBytesUnique(r: nat, g: nat, b: nat, r': nat, g': nat, b': nat)
    requires r < 256 && g < 256 && b < 256 && r' < 256 && g' < 256 && b' < 256
    requires r * 65536 + g * 256 + b == r' * 65536 + g' * 256 + b'
    ensures r == r' && g == g' && b == b'
  {
    var v := r * 65536 + g * 256 + b;
    SplitByte(v, r * 256 + g, b);
    SplitByte(v, r' * 256 + g', b');
    SplitByte(r * 256 + g, r, g);
    SplitByte(r' * 256 + g', r', g');
  }

  /** Round trip from channels: `HEXToRGB(RGBtoHEX(r, g, b))` is `rgb(r, g, b)`, with or
      without a `#` in front of the hex string. */
  lemma RgbHexRoundTrip(r: Byte, g: Byte, b: Byte)
    ensures IsHexColor(RgbToHex(r, g, b)) && IsHexColor("#" + RgbToHex(r, g, b))
    ensures HexToRgb(RgbToHex(r, g, b)) == "rgb(" + Decimal(r) + ", " + Decimal(g) + ", " + Decimal(b) + ")"
    ensures HexToRgb("#" + RgbToHex(r, g, b)) == HexToRgb(RgbToHex(r, g, b))
  {
    RgbHexChannels(r, g, b);
    HashIgnored(RgbToHex(r, g, b));
  }

  /** Round trip from hex: a 6-digit lower-case colour is what `RGBtoHEX` writes for the
      channels `HEXToRGB` reads from it. */
  lemma HexRgbRoundTrip(s: string)
    requires IsHexColor(s) && |HexBody(s)| == 6 && AllLowerDigits(HexBody(s), 16)
    ensures ParseChannels(s).r < 256
    ensures RgbToHex(ParseChannels(s).r, ParseChannels(s).g, ParseChannels(s).b) == HexBody(s)
  {
    ParseSixDigits(s);
    var c := ParseChannels(s);
    LowerHexInjective(RgbToHex(c.r, c.g, c.b), HexBody(s));
  }
}

=== FILE: lightness.dfy ===
/** `changeLightness` of utils.js: the first three maximal runs of decimal digits of an HSL
    string are read as hue, saturation and lightness (`match(/\d+/g).map(Number)`), the
    lightness is moved by `delta` and clamped to [0, 100], and `hsl(H, S%, L%)` is written. */
module Lightness {
  import opened Text
  import opened Wrappers

  /** The number of decimal digits `s` starts with. */
  function LeadingDigits(s: string): (k: nat)
    ensures k <= |s|
    ensures forall i :: 0 <= i < k ==> IsDecimalDigit(s[i])
    ensures k < |s| ==> !IsDecimalDigit(s[k])
  {
    if |s| == 0 || !IsDecimalDigit(s[0]) then 0 else 1 + LeadingDigits(s[1..])
  }

  /** What `s.match(/\d+/g)` returns: the maximal runs of decimal digits, left to right. */
  function DigitRuns(s: string): (runs: seq<string>)
    ensures forall j :: 0 <= j < |runs| ==> IsDigitRun(runs[j])
    decreases |s|
  {
    if |s| == 0 then []
    else if !IsDecimalDigit(s[0]) then DigitRuns(s[1..])
    else
      var k := LeadingDigits(s);
      [s[..k]] + DigitRuns(s[k..])
  }

  predicate NoDigits(p: string) {
    forall i :: 0 <= i < |p| ==> !IsDecimalDigit(p[i])
  }

  /** `Math.max(0, Math.min(100, x))`. */
  function Clamp(x: int): (c: nat)
    ensures c <= 100
    ensures 0 <= x <= 100 ==> c == x
    ensures x < 0 ==> c == 0
    ensures x > 100 ==> c == 100
  {
    if x < 0 then 0 else if x > 100 then 100 else x
  }

  /** `Number(run)` for a run of decimal digits. */
  function RunValue(d: string): nat
    requires IsDigitRun(d)
  {
    assert AllDigits(d, 10) by {
      forall i | 0 <= i < |d|
        ensures IsHexDigit(d[i]) && CharValue(d[i]) < 10
      {
      }
    }
    ValueOf(d, 10)
  }

  /** The output text of utils.js:844: `hsl(`, the hue, `, `, the saturation, `%, `, the
      lightness and `%)`. */
  function Hsl(hue: string, saturation: string, lightness: string): string {
    "hsl(" + hue + ", " + saturation + "%, " + lightness + "%)"
  }

  /** `changeLightness($delta, $hslStr)`. With no digit run at all `match` returns null and
      the source throws (`None`); with one or two runs the missing saturation renders as
      `undefined` and the lightness, computed from `undefined`, as `NaN`. */
  function ChangeLightness(delta: int, hsl: string): Option<string> {
    var runs := DigitRuns(hsl);
    if |runs| == 0 then None
    else
      var hue := Decimal(RunValue(runs[0]));
      var saturation := if |runs| >= 2 then Decimal(RunValue(runs[1])) else "undefined";
      var lightness := if |runs| >= 3 then Decimal(Clamp(RunValue(runs[2]) + delta)) else "NaN";
      Some(Hsl(hue, saturation, lightness))
  }

  /** A prefix without digits contributes no run. */
  lemma {:induction false} RunsAfterNoDigits(p: string, q: string)
    requires NoDigits(p)
    ensures DigitRuns(p + q) == DigitRuns(q)
    decreases |p|
  {
    if |p| == 0 {
      assert p + q == q;
    } else {
      assert (p + q)[0] == p[0];
      assert (p + q)[1..] == p[1..] + q;
      RunsAfterNoDigits(p[1..], q);
    }
  }

  /** A run of digits followed by a non-digit (or nothing) is one whole run. */
  lemma {:induction false} RunsAfterDigits(d: string, q: string)
    requires IsDigitRun(d)
    requires |q| == 0 || !IsDecimalDigit(q[0])
    ensures DigitRuns(d + q) == [d] + DigitRuns(q)
  {
    LeadingDigitsOfRun(d, q);
    assert (d + q)[..|d|] == d;
    assert (d + q)[|d|..] == q;
  }

  lemma {:induction false} LeadingDigitsOfRun(d: string, q: string)
    requires forall i :: 0 <= i < |d| ==> IsDecimalDigit(d[i])
    requires |q| == 0 || !IsDecimalDigit(q[0])
    ensures LeadingDigits(d + q) == |d|
    decreases |d|
  {
    if |d| > 0 {
      assert (d + q)[1..] == d[1..] + q;
      LeadingDigitsOfRun(d[1..], q);
    }
  }

  /** `Number` reads a rendered numeral back as the same number. */
  lemma RunValueOfDecimal(n: nat)
    ensures IsDigitRun(Decimal(n))
    ensures RunValue(Decimal(n)) == n
  {
    DecimalIsRun(n);
    ValueOfToBase(n, 10);
  }

  /** The digit runs of `hsl(H, S%, L%)` are exactly H, S and L. */
  lemma {:induction false} RunsOfHsl(h: string, s: string, l: string)
    requires IsDigitRun(h) && IsDigitRun(s) && IsDigitRun(l)
    ensures DigitRuns(Hsl(h, s, l)) == [h, s, l]
  {
    var t5 := "%)";
    var t4 := l + t5;
    var t3 := "%, " + t4;
    var t2 := s + t3;
    var t1 := ", " + t2;
    var t0 := h + t1;
    assert Hsl(h, s, l) == "hsl(" + t0;
    RunsAfterNoDigits(t5, []);
    assert t5 + [] == t5;
    assert DigitRuns(t5) == [];
    RunsAfterDigits(l, t5);
    assert DigitRuns(t4) == [l];
    RunsAfterNoDigits("%, ", t4);
    RunsAfterDigits(s, t3);
    assert DigitRuns(t2) == [s, l];
    RunsAfterNoDigits(", ", t2);
    RunsAfterDigits(h, t1);
    assert DigitRuns(t0) == [h, s, l];
    RunsAfterNoDigits("hsl(", t0);
  }

  /** With three digit runs H, S and L in the input, the output's digit runs are H and S
      unchanged (as numbers) and the lightness `max(0, min(100, L + delta))`. */
  lemma ChangeLightnessRuns(delta: int, hsl: string)
    requires |DigitRuns(hsl)| >= 3
    ensures ChangeLightness(delta, hsl).Some?
    ensures |DigitRuns(ChangeLightness(delta, hsl).value)| == 3
    ensures RunValue(DigitRuns(ChangeLightness(delta, hsl).value)[0]) == RunValue(DigitRuns(hsl)[0])
    ensures RunValue(DigitRuns(ChangeLightness(delta, hsl).value)[1]) == RunValue(DigitRuns(hsl)[1])
    ensures RunValue(DigitRuns(ChangeLightness(delta, hsl).value)[2])
         == Clamp(RunValue(DigitRuns(hsl)[2]) + delta)
  {
    var runs := DigitRuns(hsl);
    var h, s, l := RunValue(runs[0]), RunValue(runs[1]), Clamp(RunValue(runs[2]) + delta);
    var o := Hsl(Decimal(h), Decimal(s), Decimal(l));
    assert ChangeLightness(delta, hsl) == Some(o);
    RunValueOfDecimal(h);
    RunValueOfDecimal(s);
    RunValueOfDecimal(l);
    RunsOfHsl(Decimal(h), Decimal(s), Decimal(l));
    assert DigitRuns(o) == [Decimal(h), Decimal(s), Decimal(l)];
  }

  /** The output lightness always lies in [0, 100]. */
  lemma LightnessInRange(delta: int, hsl: string)
    requires |DigitRuns(hsl)| >= 3
    ensures ChangeLightness(delta, hsl).Some?
    ensures |DigitRuns(ChangeLightness(delta, hsl).value)| == 3
    ensures 0 <= RunValue(DigitRuns(ChangeLightness(delta, hsl).value)[2]) <= 100
  {
    ChangeLightnessRuns(delta, hsl);
  }

  /** Two adjustments in a row: hue and saturation stay, and the lightness is clamped after
      each step (so not always the one step by `d1 + d2`). */
  lemma ChangeLightnessTwice(d1: int, d2: int, hsl: string)
    requires |DigitRuns(hsl)| >= 3
    ensures ChangeLightness(d1, hsl).Some?
    ensures ChangeLightness(d2, ChangeLightness(d1, hsl).value)
         == Some(Hsl(Decimal(RunValue(DigitRuns(hsl)[0])), Decimal(RunValue(DigitRuns(hsl)[1])),
                     Decimal(Clamp(Clamp(RunValue(DigitRuns(hsl)[2]) + d1) + d2))))
  {
    var runs := DigitRuns(hsl);
    var h, s, l := RunValue(runs[0]), RunValue(runs[1]), Clamp(RunValue(runs[2]) + d1);
    assert ChangeLightness(d1, hsl) == Some(Hsl(Decimal(h), Decimal(s), Decimal(l)));
    ChangeLightnessOfHsl(d2, h, s, l);
  }

  /** On a rendered `hsl(H, S%, L%)` the adjustment keeps H and S and clamps `L + delta`. */
  lemma ChangeLightnessOfHsl(delta: int, h: nat, s: nat, l: nat)
    ensures ChangeLightness(delta, Hsl(Decimal(h), Decimal(s), Decimal(l)))
         == Some(Hsl(Decimal(h), Decimal(s), Decimal(Clamp(l + delta))))
  {
    RunValueOfDecimal(h);
    RunValueOfDecimal(s);
    RunValueOfDecimal(l);
    RunsOfHsl(Decimal(h), Decimal(s), Decimal(l));
  }


  /** An output of `changeLightness` is a fixed point of a zero adjustment. */
  lemma ChangeLightnessZero(delta: int, hsl: string)
    requires |DigitRuns(hsl)| >= 3
    ensures ChangeLightness(delta, hsl).Some?
    ensures ChangeLightness(0, ChangeLightness(delta, hsl).value) == ChangeLightness(delta, hsl)
  {
    var runs := DigitRuns(hsl);
    var h, s, l := RunValue(runs[0]), RunValue(runs[1]), Clamp(RunValue(runs[2]) + delta);
    assert ChangeLightness(delta, hsl) == Some(Hsl(Decimal(h), Decimal(s), Decimal(l)));
    ChangeLightnessOfHsl(0, h, s, l);
  }


  /** Only an input without any digit makes the source throw. */
  lemma ChangeLightnessFails(delta: int, hsl: string)
    ensures ChangeLightness(delta, hsl).None? <==> NoDigits(hsl)
  {
    NoRunsIffNoDigits(hsl);
  }

  lemma {:induction false} NoRunsIffNoDigits(s: string)
    ensures |DigitRuns(s)| == 0 <==> NoDigits(s)
    decreases |s|
  {
    if |s| > 0 && !IsDecimalDigit(s[0]) {
      NoRunsIffNoDigits(s[1..]);
      if NoDigits(s[1..]) {
        assert NoDigits(s);
      }
    }
  }

  /** The direction the code moves the lightness: `$delta` is added, so a positive delta
      never lowers it and a negative one never raises it, and either strictly moves it while
      there is room. The doc comment promises the opposite (a negative delta lightens). */
  lemma LightnessFollowsDelta(delta: int, hsl: string)
    requires |DigitRuns(hsl)| >= 3 && RunValue(DigitRuns(hsl)[2]) <= 100
    ensures ChangeLightness(delta, hsl).Some?
    ensures var l, out := RunValue(DigitRuns(hsl)[2]), DigitRuns(ChangeLightness(delta, hsl).value);
      |out| == 3 &&
      (delta >= 0 ==> RunValue(out[2]) >= l) &&
      (delta <= 0 ==> RunValue(out[2]) <= l) &&
      (delta > 0 && l < 100 ==> RunValue(out[2]) > l)
  {
    var l := RunValue(DigitRuns(hsl)[2]);
    ChangeLightnessRuns(delta, hsl);
    var out := DigitRuns(ChangeLightness(delta, hsl).value);
    assert RunValue(out[2]) == Clamp(l + delta);
    ClampMoves(l, delta);
  }

  /** Clamping `l + delta` for `l` in range moves `l` in the direction of `delta`. */
  lemma ClampMoves(l: int, delta: int)
    requires 0 <= l <= 100
    ensures delta >= 0 ==> Clamp(l + delta) >= l
    ensures delta <= 0 ==> Clamp(l + delta) <= l
    ensures delta > 0 && l < 100 ==> Clamp(l + delta) > l
    ensures delta < 0 && l > 0 ==> Clamp(l + delta) < l
  {
  }

  /** `changeLightness(10, 'hsl(210, 39%, 59%)')` raises the lightness from 59 to 69. */
  lemma LightnessExample()
    ensures ChangeLightness(10, Hsl("210", "39", "59")) == Some(Hsl("210", "39", "69"))
  {
    ExampleNumerals();
    RunValueOfDecimal(210);
    RunValueOfDecimal(39);
    RunValueOfDecimal(59);
    RunsOfHsl("210", "39", "59");
    var runs := DigitRuns(Hsl("210", "39", "59"));
    assert RunValue(runs[0]) == 210 && RunValue(runs[1]) == 39 && RunValue(runs[2]) == 59;
    assert Clamp(59 + 10) == 69;
  }

  lemma ExampleNumerals()
    ensures Decimal(210) == "210" && Decimal(39) == "39" && Decimal(59) == "59" && Decimal(69) == "69"
  {
    assert Decimal(21) == Decimal(2) + "1";
    assert Decimal(210) == Decimal(21) + "0";
    assert Decimal(39) == Decimal(3) + "9";
    assert Decimal(59) == Decimal(5) + "9";
    assert Decimal(69) == Decimal(6) + "9";
  }

  /** The adjustment as its doc comment describes it: a negative delta lightens the colour
      and a positive one darkens it, that is, the delta is subtracted from the lightness. */
  function ChangeLightnessAsDocumented(delta: int, hsl: string): Option<string> {
    var runs := DigitRuns(hsl);
    if |runs| == 0 then None
    else
      var hue := Decimal(RunValue(runs[0]));
      var saturation := if |runs| >= 2 then Decimal(RunValue(runs[1])) else "undefined";
      var lightness := if |runs| >= 3 then Decimal(Clamp(RunValue(runs[2]) - delta)) else "NaN";
      Some(Hsl(hue, saturation, lightness))
  }

  /** The documented adjustment is the coded one with the delta negated. */
  lemma DocumentedIsNegated(delta: int, hsl: string)
    ensures ChangeLightnessAsDocumented(delta, hsl) == ChangeLightness(-delta, hsl)
  {
  }

  /** The documented direction holds of the corrected adjustment: a positive delta never
      raises the lightness and a negative one never lowers it, and either strictly moves it
      while there is room. Hue and saturation are kept. */
  lemma DocumentedLightnessDirection(delta: int, hsl: string)
    requires |DigitRuns(hsl)| >= 3 && RunValue(DigitRuns(hsl)[2]) <= 100
    ensures ChangeLightnessAsDocumented(delta, hsl).Some?
    ensures var runs, out := DigitRuns(hsl), DigitRuns(ChangeLightnessAsDocumented(delta, hsl).value);
      |out| == 3 &&
      RunValue(out[0]) == RunValue(runs[0]) && RunValue(out[1]) == RunValue(runs[1]) &&
      (delta >= 0 ==> RunValue(out[2]) <= RunValue(runs[2])) &&
      (delta <= 0 ==> RunValue(out[2]) >= RunValue(runs[2])) &&
      (delta > 0 && RunValue(runs[2]) > 0 ==> RunValue(out[2]) < RunValue(runs[2])) &&
      (delta < 0 && RunValue(runs[2]) < 100 ==> RunValue(out[2]) > RunValue(runs[2]))
  {
    var l := RunValue(DigitRuns(hsl)[2]);
    DocumentedIsNegated(delta, hsl);
    ChangeLightnessRuns(-delta, hsl);
    var out := DigitRuns(ChangeLightness(-delta, hsl).value);
    assert RunValue(out[2]) == Clamp(l + -delta);
    ClampMoves(l, -delta);
  }

}

=== FILE: ranges.dfy ===
/** `range` of utils.js, as written and as its documentation describes it. The source
    recurses until the current value reaches `$to`, so the last element is the first value
    at or above `$to`: the result overshoots the upper limit whenever the step does not land
    on it, and `range(from, to)` with `from >= to` is `[from]`. `RangeWithin` is the range its
    doc comment promises (values from `$from` up to and including `$to`). */
module Ranges {
  import opened Text
  import opened Arrays

  /** `range($from, $to, $step)` for a positive step, 1 by default (with a step of 0 or less
      and `$from < $to` the source recurses without end). */
  function Range(from: int, to: int, step: int := 1): (r: seq<int>)
    requires step >= 1
    ensures |r| >= 1 && r[0] == from
    ensures forall i :: 0 <= i < |r| - 1 ==> r[i] < to
    ensures r[|r| - 1] >= to
    decreases if from >= to then 0 else to - from
  {
    if from >= to then [from] else [from] + Range(from + step, to, step)
  }

  /** There are `ceil((to - from) / step)` elements below `to` before the last one. */
  lemma {:induction false} RangeLength(from: int, to: int, step: int)
    requires step >= 1
    ensures |Range(from, to, step)| == if from >= to then 1 else 1 + CeilDiv(to - from, step)
    decreases if from >= to then 0 else to - from
  {
    if from < to {
      RangeLength(from + step, to, step);
      assert |Range(from, to, step)| == 1 + |Range(from + step, to, step)|;
      if from + step >= to {
        DivModUnique(to - from + step - 1, step, 1, to - from - 1);
      } else {
        DivPlusOne(to - from - 1, step);
      }
    }
  }

  /** Closed form: element `i` is `from + i * step`. */
  lemma {:induction false} RangeAt(from: int, to: int, step: int)
    requires step >= 1
    ensures forall i :: 0 <= i < |Range(from, to, step)| ==> Range(from, to, step)[i] == from + i * step
    decreases if from >= to then 0 else to - from
  {
    if from < to {
      var r, rest := Range(from, to, step), Range(from + step, to, step);
      RangeAt(from + step, to, step);
      forall i | 1 <= i < |r|
        ensures r[i] == from + i * step
      {
        assert r[i] == rest[i - 1];
        MulSucc(i - 1, step);
      }
    }
  }

  /** The range the doc comment describes: `from`, `from + step`, ... up to and including
      `to`, and nothing when `from > to`. */
  function RangeWithin(from: int, to: int, step: int): (r: seq<int>)
    requires step >= 1
    ensures |r| >= 1 <==> from <= to
    ensures |r| >= 1 ==> r[0] == from && r[|r| - 1] + step > to
    ensures forall i :: 0 <= i < |r| ==> from <= r[i] <= to
    decreases if from > to then 0 else to - from + 1
  {
    if from > to then [] else [from] + RangeWithin(from + step, to, step)
  }

  /** Closed form: element `i` is `from + i * step`. */
  lemma {:induction false} RangeWithinAt(from: int, to: int, step: int)
    requires step >= 1
    ensures forall i :: 0 <= i < |RangeWithin(from, to, step)| ==> RangeWithin(from, to, step)[i] == from + i * step
    decreases if from > to then 0 else to - from + 1
  {
    if from <= to {
      var r, rest := RangeWithin(from, to, step), RangeWithin(from + step, to, step);
      RangeWithinAt(from + step, to, step);
      forall i | 1 <= i < |r|
        ensures r[i] == from + i * step
      {
        assert r[i] == rest[i - 1];
        MulSucc(i - 1, step);
      }
    }
  }

  /** When the last element of `range` lands on `to`, `range` is the documented range. */
  lemma {:induction false} RangeLandsOnLimit(from: int, to: int, step: int)
    requires step >= 1
    requires Range(from, to, step)[|Range(from, to, step)| - 1] == to
    ensures Range(from, to, step) == RangeWithin(from, to, step)
    decreases if from >= to then 0 else to - from
  {
    if from >= to {
      assert RangeWithin(from + step, to, step) == [];
    } else {
      var rest := Range(from + step, to, step);
      assert Range(from, to, step) == [from] + rest;
      RangeLandsOnLimit(from + step, to, step);
    }
  }

  /** When the last element of `range` passes `to`, `range` is the documented range plus
      that one element. */
  lemma {:induction false} RangePassesLimit(from: int, to: int, step: int)
    requires step >= 1
    requires Range(from, to, step)[|Range(from, to, step)| - 1] > to
    ensures Range(from, to, step) == RangeWithin(from, to, step) + [Range(from, to, step)[|Range(from, to, step)| - 1]]
    decreases if from >= to then 0 else to - from
  {
    if from < to {
      var rest, w' := Range(from + step, to, step), RangeWithin(from + step, to, step);
      var x := rest[|rest| - 1];
      assert Range(from, to, step) == [from] + rest;
      RangePassesLimit(from + step, to, step);
      assert RangeWithin(from, to, step) == [from] + w';
      assert [from] + (w' + [x]) == ([from] + w') + [x];
    }
  }

  /** How the two differ: `range` is `RangeWithin` plus one more element exactly when the
      step does not land on `to` (or when `from > to`, where `range` gives `[from]`). */
  lemma RangeOvershoot(from: int, to: int, step: int)
    requires step >= 1
    ensures Range(from, to, step)[|Range(from, to, step)| - 1] == to ==>
      Range(from, to, step) == RangeWithin(from, to, step)
    ensures Range(from, to, step)[|Range(from, to, step)| - 1] > to ==>
      Range(from, to, step) == RangeWithin(from, to, step) + [Range(from, to, step)[|Range(from, to, step)| - 1]]
  {
    var r := Range(from, to, step);
    if r[|r| - 1] == to {
      RangeLandsOnLimit(from, to, step);
    } else {
      RangePassesLimit(from, to, step);
    }
  }

  /** The overshoot on concrete inputs: `range(1, 10, 4)` reaches 13, past its upper
      limit 10, and `range(5, 1)` is `[5]`. */
  lemma RangeOvershootExample()
    ensures Range(1, 10, 4) == [1, 5, 9, 13]
    ensures RangeWithin(1, 10, 4) == [1, 5, 9]
    ensures Range(5, 1, 1) == [5] && RangeWithin(5, 1, 1) == []
  {
    assert Range(13, 10, 4) == [13];
    assert Range(9, 10, 4) == [9, 13];
    assert Range(5, 10, 4) == [5, 9, 13];
    assert RangeWithin(13, 10, 4) == [];
    assert RangeWithin(9, 10, 4) == [9];
    assert RangeWithin(5, 10, 4) == [5, 9];
  }

  /** With step 1 and `from <= to` the two agree: the consecutive integers `from..to`. */
  lemma StepOneAgrees(from: int, to: int)
    requires from <= to
    ensures Range(from, to, 1) == RangeWithin(from, to, 1)
    ensures |RangeWithin(from, to, 1)| == to - from + 1
    ensures forall i :: 0 <= i < to - from + 1 ==> RangeWithin(from, to, 1)[i] == from + i
  {
    RangeLength(from, to, 1);
    RangeAt(from, to, 1);
    var r := Range(from, to, 1);
    if from < to {
      assert CeilDiv(to - from, 1) == to - from;
    }
    RangeOvershoot(from, to, 1);
  }
}

=== FILE: scalars.dfy ===
/** The scalar and string helpers of utils.js: `padNumber`, `formatString`, `isBetween`,
    `pluralize` and `isLeapYear`. Numbers are the integers the helpers are used with; a
    JavaScript `undefined` argument is `None`. */
module Scalars {
  import opened Wrappers
  import opened Text
  import opened Ranges

  // ---------------------------------------------------------------------------------------
  // padNumber

  /** `padNumber($n, $z)`: the numeral of `$n` left-padded with `'0'` to length `$z`
      (the source's default for `$z` is 2). */
  function PadNumber(n: int, z: int := 2): string {
    PadStart(IntToString(n), z, '0')
  }

  /** For a non-negative number the padded numeral is a decimal numeral of the same value,
      exactly `max(z, digits)` long, and nothing but zeros was added. */
  lemma PadNumberValue(n: nat, z: int)
    ensures AllDigits(PadNumber(n, z), 10)
    ensures ValueOf(PadNumber(n, z), 10) == n
    ensures |PadNumber(n, z)| == if z <= |Decimal(n)| then |Decimal(n)| else z
    ensures z <= |Decimal(n)| ==> PadNumber(n, z) == Decimal(n)
  {
    var d, r := Decimal(n), PadNumber(n, z);
    var k := |r| - |d|;
    assert r == r[..k] + d;
    ValueOfLeadingZeros(r[..k], d, 10);
    ValueOfToBase(n, 10);
  }

  /** A padded numeral has the same value as the bare one and is at least `z` long, so
      padding is undone by reading the number back. */
  lemma PadNumberRoundTrip(n: nat, m: nat, z: int)
    requires PadNumber(n, z) == PadNumber(m, z)
    ensures n == m
  {
    PadNumberValue(n, z);
    PadNumberValue(m, z);
  }

  /** A negative number is padded in front of its sign: `padNumber(-5, 3)` is `"0-5"`. */
  lemma PadNegativeExample()
    ensures PadNumber(-5, 3) == "0-5"
    ensures PadNumber(7) == "07" && PadNumber(123) == "123"
  {
    assert Decimal(5) == "5";
    assert Decimal(7) == "7";
    assert Decimal(123) == Decimal(12) + "3";
    assert Decimal(12) == Decimal(1) + "2";
  }

  // ---------------------------------------------------------------------------------------
  // formatString

  /** `s` holds the two characters `{}` at `j`. */
  predicate PlaceholderAt(s: string, j: int) {
    0 <= j < |s| - 1 && s[j] == '{' && s[j + 1] == '}'
  }

  predicate NoPlaceholder(s: string) {
    forall j :: 0 <= j < |s| - 1 ==> !PlaceholderAt(s, j)
  }

  /** The `replace(/{}/g, ...)` scan from the left with the argument counter at `i`: a match
      consumes both characters; the callback inserts `args[i]` and advances `i` only when
      it is defined, and inserts the empty string otherwise. */
  function FormatFrom(s: string, args: seq<Option<string>>, i: nat): (r: string)
    ensures NoPlaceholder(s) ==> r == s
    decreases |s|
  {
    if |s| < 2 then s
    else if s[0] == '{' && s[1] == '}' then
      assert PlaceholderAt(s, 0);
      if i < |args| && args[i].Some? then args[i].value + FormatFrom(s[2..], args, i + 1)
      else FormatFrom(s[2..], args, i)
    else
      assert NoPlaceholder(s) ==> NoPlaceholder(s[1..]) by {
        if NoPlaceholder(s) {
          forall j | 0 <= j < |s[1..]| - 1
            ensures !PlaceholderAt(s[1..], j)
          {
            assert !PlaceholderAt(s, j + 1);
          }
        }
      }
      [s[0]] + FormatFrom(s[1..], args, i)
  }

  /** `formatString($str, ...$args)`. */
  function FormatString(s: string, args: seq<Option<string>>): string {
    FormatFrom(s, args, 0)
  }

  /** The literal text around the placeholders, found by the same left-to-right scan: a
      string with `k` placeholders has `k + 1` pieces. */
  function Pieces(s: string): (p: seq<string>)
    ensures |p| >= 1
    decreases |s|
  {
    if |s| < 2 then [s]
    else if s[0] == '{' && s[1] == '}' then [""] + Pieces(s[2..])
    else
      var rest := Pieces(s[1..]);
      [[s[0]] + rest[0]] + rest[1..]
  }

  /** The pieces are the template cut at its placeholders: joined with `{}` again they give
      the template back. */
  lemma {:induction false} PiecesRebuild(s: string)
    ensures Weave(Pieces(s), seq(Placeholders(s), _ => "{}")) == s
    decreases |s|
  {
    var b := seq(Placeholders(s), _ => "{}");
    if |s| < 2 {
    } else if s[0] == '{' && s[1] == '}' {
      PiecesRebuild(s[2..]);
      var p := Pieces(s);
      assert p == [""] + Pieces(s[2..]);
      assert p[1..] == Pieces(s[2..]);
      assert b[1..] == seq(Placeholders(s[2..]), _ => "{}");
      assert Weave(p, b) == p[0] + b[0] + Weave(p[1..], b[1..]);
      assert s == "{}" + s[2..];
    } else {
      PiecesRebuild(s[1..]);
      WeaveCons(s[0], Pieces(s[1..]), b);
      assert s == [s[0]] + s[1..];
    }
  }

  /** The number of placeholders `replace` finds. */
  function Placeholders(s: string): nat {
    |Pieces(s)| - 1
  }

  /** The reference meaning of filling a template: literal pieces interleaved with the
      fills, `p[0] + f[0] + p[1] + f[1] + ... + p[k]`. */
  function Weave(p: seq<string>, f: seq<string>): string
    requires |p| >= 1 && |f| >= |p| - 1
    decreases |p|
  {
    if |p| == 1 then p[0] else p[0] + f[0] + Weave(p[1..], f[1..])
  }

  /** The values of the defined arguments from `i` on, assuming all of them are defined. */
  predicate AllDefined(args: seq<Option<string>>) {
    forall j :: 0 <= j < |args| ==> args[j].Some?
  }

  function Values(args: seq<Option<string>>): (v: seq<string>)
    requires AllDefined(args)
    ensures |v| == |args|
    ensures forall j :: 0 <= j < |args| ==> v[j] == args[j].value
  {
    seq(|args|, j requires 0 <= j < |args| => args[j].value)
  }

  /** Prepending a literal character extends the first piece. */
  lemma WeaveCons(c: char, p: seq<string>, f: seq<string>)
    requires |p| >= 1 && |f| >= |p| - 1
    ensures Weave([[c] + p[0]] + p[1..], f) == [c] + Weave(p, f)
  {
    var q := [[c] + p[0]] + p[1..];
    assert q[1..] == p[1..];
  }

  /** With every argument defined and at least one per placeholder, `formatString` is the
      literal pieces interleaved with the arguments in order. */
  lemma {:induction false} FormatWeave(s: string, args: seq<Option<string>>, i: nat)
    requires i <= |args| && AllDefined(args)
    requires |args| - i >= Placeholders(s)
    ensures FormatFrom(s, args, i) == Weave(Pieces(s), Values(args)[i..])
    decreases |s|
  {
    var v := Values(args)[i..];
    if |s| < 2 {
    } else if s[0] == '{' && s[1] == '}' {
      FormatWeave(s[2..], args, i + 1);
      var p := Pieces(s);
      assert p == [""] + Pieces(s[2..]);
      assert p[1..] == Pieces(s[2..]);
      assert v[1..] == Values(args)[i + 1..];
    } else {
      FormatWeave(s[1..], args, i);
      WeaveCons(s[0], Pieces(s[1..]), v);
    }
  }

  function FormatAll(s: string, args: seq<Option<string>>): string
    requires AllDefined(args) && |args| >= Placeholders(s)
  {
    Weave(Pieces(s), Values(args))
  }

  /** `formatString` with enough defined arguments is the interleaving of the template's
      literal pieces and the arguments; arguments past the last placeholder are ignored. */
  lemma FormatStringWeave(s: string, args: seq<Option<string>>)
    requires AllDefined(args) && |args| >= Placeholders(s)
    ensures FormatString(s, args) == FormatAll(s, args)
  {
    FormatWeave(s, args, 0);
    assert Values(args)[0..] == Values(args);
  }

  /** The fills of `k` placeholders from the argument values `v`: `v` itself when it has
      enough of them, otherwise `v` followed by empty strings up to `k`. */
  function Fills(v: seq<string>, k: nat): (f: seq<string>)
    ensures |f| >= k
    ensures forall j :: 0 <= j < |f| ==> f[j] == if j < |v| then v[j] else ""
  {
    if |v| >= k then v else v + seq(k - |v|, _ => "")
  }

  /** Filling one placeholder consumes the first value, or an empty string once the values
      have run out. */
  lemma FillsTail(v: seq<string>, k: nat)
    requires k >= 1
    ensures Fills(v, k)[0] == if |v| >= 1 then v[0] else ""
    ensures Fills(v, k)[1..] == Fills(if |v| >= 1 then v[1..] else [], k - 1)
  {
    var f, g := Fills(v, k)[1..], Fills(if |v| >= 1 then v[1..] else [], k - 1);
    assert |f| == |g|;
    forall j | 0 <= j < |f|
      ensures f[j] == g[j]
    {
    }
  }

  /** With every argument defined, `formatString` from counter `i` is the template's literal
      pieces interleaved with the arguments from `i` on, and every placeholder left over when
      they run out becomes the empty string (the `: ''` branch of the callback). */
  lemma {:induction false} FormatWeaveFills(s: string, args: seq<Option<string>>, i: nat)
    requires i <= |args| && AllDefined(args)
    ensures FormatFrom(s, args, i) == Weave(Pieces(s), Fills(Values(args)[i..], Placeholders(s)))
    decreases |s|
  {
    var v := Values(args)[i..];
    if |s| < 2 {
    } else if s[0] == '{' && s[1] == '}' {
      var j := if i < |args| then i + 1 else i;
      assert (if |v| >= 1 then v[1..] else []) == Values(args)[j..];
      FormatWeaveFills(s[2..], args, j);
      WeaveFillsStep(s, v);
    } else {
      FormatWeaveFills(s[1..], args, i);
      WeaveCons(s[0], Pieces(s[1..]), Fills(v, Placeholders(s[1..])));
    }
  }

  /** At a placeholder, the interleaving takes the first fill and goes on with the rest. */
  lemma WeaveFillsStep(s: string, v: seq<string>)
    requires |s| >= 2 && s[0] == '{' && s[1] == '}'
    ensures Weave(Pieces(s), Fills(v, Placeholders(s)))
         == (if |v| >= 1 then v[0] else "")
            + Weave(Pieces(s[2..]), Fills(if |v| >= 1 then v[1..] else [], Placeholders(s[2..])))
  {
    var p, rest := Pieces(s), Pieces(s[2..]);
    assert p == [""] + rest;
    var f := Fills(v, Placeholders(s));
    var g := Fills(if |v| >= 1 then v[1..] else [], Placeholders(s[2..]));
    assert f == Fills(v, |rest|);
    assert g == Fills(if |v| >= 1 then v[1..] else [], |rest| - 1);
    WeaveEmptyHead(rest, v);
    assert Weave(p, f) == (if |v| >= 1 then v[0] else "") + Weave(rest, g);
  }

  /** A template that opens with a placeholder: its first piece is empty, so the interleaving
      starts with the first fill. */
  lemma WeaveEmptyHead(rest: seq<string>, v: seq<string>)
    requires |rest| >= 1
    ensures Weave([""] + rest, Fills(v, |rest|))
         == (if |v| >= 1 then v[0] else "") + Weave(rest, Fills(if |v| >= 1 then v[1..] else [], |rest| - 1))
  {
    var p, f := [""] + rest, Fills(v, |rest|);
    var head, tail := if |v| >= 1 then v[0] else "", Fills(if |v| >= 1 then v[1..] else [], |rest| - 1);
    assert p[0] == "" && p[1..] == rest;
    FillsTail(v, |rest|);
    assert f[0] == head && f[1..] == tail;
    assert Weave(p, f) == p[0] + f[0] + Weave(p[1..], f[1..]);
    assert p[0] + f[0] == head;
  }

  /** Closed form of `formatString` for every argument list: with `k` the index of the first
      `undefined` argument (or the number of arguments when there is none), the output is the
      literal pieces interleaved with the first `k` arguments, padded with empty strings. */
  lemma FormatStringFills(s: string, args: seq<Option<string>>, k: nat)
    requires k <= |args| && AllDefined(args[..k]) && (k == |args| || args[k].None?)
    ensures FormatString(s, args) == Weave(Pieces(s), Fills(Values(args[..k]), Placeholders(s)))
  {
    if k < |args| {
      FormatCutAtUndefined(s, args, 0, k);
    } else {
      assert args[..k] == args;
    }
    FormatWeaveFills(s, args[..k], 0);
    assert Values(args[..k])[0..] == Values(args[..k]);
  }

  /** What every placeholder becomes once the arguments run out: nothing. */
  function Erase(s: string): string {
    FormatFrom(s, [], 0)
  }

  /** The counter stops at the first undefined argument (it advances only on defined ones),
      so from there on every placeholder is erased, whatever the later arguments are. */
  lemma {:induction false} FormatStopsAtUndefined(s: string, args: seq<Option<string>>, i: nat)
    requires i >= |args| || args[i].None?
    ensures FormatFrom(s, args, i) == Erase(s)
    decreases |s|
  {
    if |s| >= 2 {
      if s[0] == '{' && s[1] == '}' {
        FormatStopsAtUndefined(s[2..], args, i);
        FormatStopsAtUndefined(s[2..], [], 0);
      } else {
        FormatStopsAtUndefined(s[1..], args, i);
        FormatStopsAtUndefined(s[1..], [], 0);
      }
    }
  }

  /** The arguments from the first undefined one on are never used: cutting the argument
      list there leaves the output unchanged. */
  lemma {:induction false} FormatCutAtUndefined(s: string, args: seq<Option<string>>, i: nat, k: nat)
    requires i <= k < |args| && args[k].None?
    ensures FormatFrom(s, args, i) == FormatFrom(s, args[..k], i)
    decreases |s|
  {
    if |s| >= 2 {
      if s[0] == '{' && s[1] == '}' {
        if i < k && args[i].Some? {
          assert args[..k][i] == args[i];
          FormatCutAtUndefined(s[2..], args, i + 1, k);
        } else {
          if i < k {
            assert args[..k][i] == args[i];
          }
          FormatCutAtUndefined(s[2..], args, i, k);
        }
      } else {
        FormatCutAtUndefined(s[1..], args, i, k);
      }
    }
  }

  /** Erasing joins the literal pieces. */
  lemma {:induction false} EraseJoinsPieces(s: string)
    ensures Erase(s) == Weave(Pieces(s), seq(Placeholders(s), _ => ""))
    decreases |s|
  {
    var e := seq(Placeholders(s), _ => "");
    if |s| < 2 {
    } else if s[0] == '{' && s[1] == '}' {
      EraseJoinsPieces(s[2..]);
      FormatStopsAtUndefined(s[2..], [], 0);
      assert Pieces(s)[1..] == Pieces(s[2..]);
      assert e[1..] == seq(Placeholders(s[2..]), _ => "");
    } else {
      EraseJoinsPieces(s[1..]);
      FormatStopsAtUndefined(s[1..], [], 0);
      WeaveCons(s[0], Pieces(s[1..]), e);
    }
  }

  /** `formatString("{}-{}", "a", "b")`, the effect of an `undefined` argument, and
      placeholders with no argument left. */
  lemma FormatStringExample()
    ensures FormatString("{}-{}", [Some("a"), Some("b")]) == "a-b"
    ensures FormatString("{}-{}", [None, Some("b")]) == "-"
    ensures FormatString("x{}", []) == "x"
    ensures FormatString("{}-{}", [Some("a")]) == "a-"
  {
    assert FormatFrom("{}", [Some("a")], 1) == "";
    assert FormatFrom("-{}", [Some("a")], 1) == "-";
    assert FormatFrom("{}", [Some("a"), Some("b")], 1) == "b";
    assert FormatFrom("-{}", [Some("a"), Some("b")], 1) == "-b";
    assert FormatFrom("{}", [None, Some("b")], 0) == "";
    assert FormatFrom("-{}", [None, Some("b")], 0) == "-";
    assert FormatFrom("{}", [], 0) == "";
  }

  // ---------------------------------------------------------------------------------------
  // isBetween

  /** `isBetween($val, $low, $high)`: both limits included. */
  predicate IsBetween(v: int, low: int, high: int) {
    v >= low && v <= high
  }

  /** `isBetween` is membership in the inclusive integer range from `low` to `high` (which
      `range(low, high)` builds when `low <= high`). */
  lemma IsBetweenRange(v: int, low: int, high: int)
    ensures IsBetween(v, low, high) <==> v in RangeWithin(low, high, 1)
    ensures low <= high ==> (IsBetween(v, low, high) <==> v in Range(low, high, 1))
  {
    if low <= high {
      StepOneAgrees(low, high);
      if IsBetween(v, low, high) {
        assert RangeWithin(low, high, 1)[v - low] == v;
      }
    }
  }

  // ---------------------------------------------------------------------------------------
  // pluralize

  /** `pluralize(counter, suffix)`: the suffix (default `"s"`) unless the counter is
      exactly 1. */
  function Pluralize(counter: int, suffix: string := "s"): string {
    if counter == 1 then "" else suffix
  }

  /** The suffix is the empty string for a counter of exactly 1 and the given suffix (`"s"`
      when none is given) for every other counter, 0 and negatives included. Appended to a
      word, as the doc comment intends, it leaves the word bare exactly when the counter is
      1 or the suffix is empty, and otherwise ends the word with the suffix. */
  lemma PluralizeForms(word: string, counter: int, suffix: string)
    ensures Pluralize(1, suffix) == "" && Pluralize(1) == ""
    ensures counter != 1 ==> Pluralize(counter, suffix) == suffix && Pluralize(counter) == "s"
    ensures word + Pluralize(counter, suffix) == word <==> counter == 1 || suffix == []
    ensures counter != 1 ==> (word + Pluralize(counter, suffix))[|word|..] == suffix
  {
    if counter != 1 && suffix != [] {
      assert |word + Pluralize(counter, suffix)| > |word|;
    }
  }

  // ---------------------------------------------------------------------------------------
  // isLeapYear

  /** `isLeapYear($year)` as written: divisible by 4, and by 100, and by 400. (JavaScript's
      `%` truncates, but a remainder of 0 means the same under either convention.) */
  predicate IsLeapYear(year: int) {
    year % 4 == 0 && year % 100 == 0 && year % 400 == 0
  }

  /** The conjunction collapses to divisibility by 400. */
  lemma IsLeapYearOnly400(year: int)
    ensures IsLeapYear(year) <==> year % 400 == 0
  {
    if year % 400 == 0 {
      var k := year / 400;
      assert year == 4 * (100 * k);
      assert year == 100 * (4 * k);
    }
  }

  /** The Gregorian rule the doc comment names: divisible by 4, except centuries not
      divisible by 400. */
  predicate IsGregorianLeapYear(year: int) {
    year % 4 == 0 && (year % 100 != 0 || year % 400 == 0)
  }

  /** Every year the source calls leap is leap; the two disagree exactly on the years
      divisible by 4 but not by 100, the ordinary leap years. */
  lemma LeapYearDiscrepancy(year: int)
    ensures IsLeapYear(year) ==> IsGregorianLeapYear(year)
    ensures IsLeapYear(year) != IsGregorianLeapYear(year) <==> year % 4 == 0 && year % 100 != 0
  {
    IsLeapYearOnly400(year);
  }

  /** 2024 is a leap year the source rejects; 2000 and 1900 are judged alike by both. */
  lemma LeapYearCounterexample()
    ensures IsGregorianLeapYear(2024) && !IsLeapYear(2024)
    ensures IsGregorianLeapYear(2000) && IsLeapYear(2000)
    ensures !IsGregorianLeapYear(1900) && !IsLeapYear(1900)
  {
  }
}

=== FILE: text.dfy ===
/** Numerals and string padding as JavaScript renders them: `Number.prototype.toString(base)`
    for non-negative integers (base 10 and base 16, lower-case digits), the digit value of a
    numeral as `parseInt`/`Number` read it, and `String.prototype.padStart`. */
module Text {

  /** A digit of some base up to 16; letters are accepted in either case. */
  predicate IsHexDigit(c: char) {
    ('0' <= c <= '9') || ('a' <= c <= 'f') || ('A' <= c <= 'F')
  }

  predicate IsDecimalDigit(c: char) {
    '0' <= c <= '9'
  }

  function CharValue(c: char): (d: nat)
    requires IsHexDigit(c)
    ensures d < 16
    ensures IsDecimalDigit(c) <==> d < 10
  {
    if '0' <= c <= '9' then c as int - '0' as int
    else if 'a' <= c <= 'f' then c as int - 'a' as int + 10
    else c as int - 'A' as int + 10
  }

  /** The lower-case digit character for `d`. */
  function DigitChar(d: nat): (c: char)
    requires d < 16
    ensures IsHexDigit(c) && CharValue(c) == d
    ensures d < 10 ==> IsDecimalDigit(c)
    ensures '0' <= c <= '9' || 'a' <= c <= 'f'
  {
    if d < 10 then ('0' as int + d) as char else ('a' as int + d - 10) as char
  }

  predicate IsBase(base: nat) {
    2 <= base <= 16
  }

  /** Every character of `s` is a digit of `base`. */
  predicate AllDigits(s: string, base: nat) {
    forall i :: 0 <= i < |s| ==> IsHexDigit(s[i]) && CharValue(s[i]) < base
  }

  /** Every character of `s` is a lower-case digit of `base` (what `toString(base)` emits). */
  predicate AllLowerDigits(s: string, base: nat) {
    AllDigits(s, base) && forall i :: 0 <= i < |s| ==> !('A' <= s[i] <= 'F')
  }

  /** The value of a numeral, most significant digit first; the empty numeral is 0. */
  function ValueOf(s: string, base: nat): (v: nat)
    requires AllDigits(s, base)
    decreases |s|
  {
    if |s| == 0 then 0
    else ValueOf(s[..|s| - 1], base) * base + CharValue(s[|s| - 1])
  }

  /** `n.toString(base)` for a non-negative integer: no sign, no leading zero. */
  function ToBase(n: nat, base: nat): (s: string)
    requires IsBase(base)
    ensures |s| >= 1
    ensures AllLowerDigits(s, base)
    decreases n
  {
    if n < base then [DigitChar(n)]
    else
      DivMod(n, base);
      var prefix, last := ToBase(n / base, base), DigitChar(n % base);
      assert forall i :: 0 <= i < |prefix| ==> (prefix + [last])[i] == prefix[i];
      prefix + [last]
  }

  function Decimal(n: nat): string {
    ToBase(n, 10)
  }

  function LowerHex(n: nat): string {
    ToBase(n, 16)
  }

  /** A non-empty string of decimal digits. */
  predicate IsDigitRun(d: string) {
    |d| >= 1 && forall i :: 0 <= i < |d| ==> IsDecimalDigit(d[i])
  }

  /** A decimal numeral is a run of digits. */
  lemma DecimalIsRun(n: nat)
    ensures IsDigitRun(Decimal(n))
  {
    var d := Decimal(n);
    forall i | 0 <= i < |d|
      ensures IsDecimalDigit(d[i])
    {
      assert IsHexDigit(d[i]) && CharValue(d[i]) < 10;
    }
  }

  /** The numeral rendering of a JavaScript integer number: a minus sign before negative ones. */
  function IntToString(n: int): string {
    if n < 0 then "-" + Decimal(-n) else Decimal(n)
  }

  /** The numeral `ToBase` writes is read back as the same number. */
  lemma {:induction false} ValueOfToBase(n: nat, base: nat)
    requires IsBase(base)
    ensures ValueOf(ToBase(n, base), base) == n
    decreases n
  {
    if n < base {
      ValueOfSnoc([], DigitChar(n), base);
      assert [] + [DigitChar(n)] == ToBase(n, base);
    } else {
      var q, d := n / base, n % base;
      DivMod(n, base);
      var prefix := ToBase(q, base);
      assert ToBase(n, base) == prefix + [DigitChar(d)];
      ValueOfToBase(q, base);
      ValueOfSnoc(prefix, DigitChar(d), base);
      calc {
        ValueOf(ToBase(n, base), base);
      ==
        ValueOf(prefix, base) * base + CharValue(DigitChar(d));
      ==
        q * base + d;
      ==
        n;
      }
    }
  }

  /** Appending a digit multiplies the value by the base and adds the digit. */
  lemma ValueOfSnoc(p: string, c: char, base: nat)
    requires AllDigits(p, base) && IsHexDigit(c) && CharValue(c) < base
    ensures AllDigits(p + [c], base)
    ensures ValueOf(p + [c], base) == ValueOf(p, base) * base + CharValue(c)
  {
    assert (p + [c])[..|p|] == p;
  }

  /** `ToBase` writes no leading zero: its first digit is `0` only for the number 0. */
  lemma {:induction false} ToBaseNoLeadingZero(n: nat, base: nat)
    requires IsBase(base)
    ensures ToBase(n, base)[0] == '0' <==> n == 0
    decreases n
  {
    if n >= base {
      var q := n / base;
      DivMod(n, base);
      assert q >= 1;
      ToBaseNoLeadingZero(q, base);
      assert ToBase(n, base) == ToBase(q, base) + [DigitChar(n % base)];
    }
  }

  /** The value of a numeral is below `base` to the power of its length. */
  lemma {:induction false} ValueOfBound(s: string, base: nat)
    requires IsBase(base) && AllDigits(s, base)
    ensures ValueOf(s, base) < Pow(base, |s|)
    decreases |s|
  {
    if |s| > 0 {
      var p, c := s[..|s| - 1], s[|s| - 1];
      assert s == p + [c];
      ValueOfSnoc(p, c, base);
      ValueOfBound(p, base);
      var v, P := ValueOf(p, base), Pow(base, |p|);
      MulMonotone(v + 1, P, base);
      MulSucc(v, base);
      PowSucc(base, |p|);
      calc {
        ValueOf(s, base);
      ==
        v * base + CharValue(c);
      <
        (v + 1) * base;
      <=
        P * base;
      ==
        Pow(base, |s|);
      }
    }
  }

  /** A lower-case numeral without a leading zero is the one `ToBase` writes for its value:
      the converse of `ValueOfToBase`. */
  lemma {:induction false} ToBaseValueOf(s: string, base: nat)
    requires IsBase(base) && AllLowerDigits(s, base)
    requires |s| >= 1 && (|s| == 1 || s[0] != '0')
    ensures ToBase(ValueOf(s, base), base) == s
    decreases |s|
  {
    var p, c := s[..|s| - 1], s[|s| - 1];
    assert s == p + [c];
    ValueOfSnoc(p, c, base);
    var d := CharValue(c);
    DigitCharOf(c);
    if |s| == 1 {
      assert ValueOf(s, base) == d;
    } else {
      assert p[0] == s[0];
      ToBaseValueOf(p, base);
      var pv := ValueOf(p, base);
      ToBaseNoLeadingZero(pv, base);
      MulMonotone(1, pv, base);
      DivModUnique(pv * base + d, base, pv, d);
    }
  }

  lemma DigitCharOf(c: char)
    requires IsHexDigit(c) && !('A' <= c <= 'F')
    ensures DigitChar(CharValue(c)) == c
  {
  }

  lemma DivModUnique(v: nat, base: nat, q: nat, d: nat)
    requires base >= 1 && d < base && v == q * base + d
    ensures v / base == q && v % base == d
  {
    var q2, d2 := v / base, v % base;
    assert v == q2 * base + d2;
    if q2 > q {
      MulMonotone(q + 1, q2, base);
    } else if q2 < q {
      MulMonotone(q2 + 1, q, base);
    }
  }

  /** Euclidean division of a natural number, stated with the multiplication on the right. */
  lemma DivMod(n: nat, base: nat)
    requires base >= 1
    ensures n == (n / base) * base + n % base
    ensures base >= 2 && n >= 1 ==> n / base < n
  {
  }

  function Pow(b: nat, e: nat): (p: nat)
    ensures b >= 1 ==> p >= 1
  {
    if e == 0 then 1 else b * Pow(b, e - 1)
  }

  /** One more factor of the base, written on the right. */
  lemma PowSucc(b: nat, e: nat)
    ensures Pow(b, e + 1) == Pow(b, e) * b
  {
    assert Pow(b, e + 1) == b * Pow(b, e);
  }

  lemma MulMonotone(a: nat, b: nat, c: nat)
    requires a <= b
    ensures a * c <= b * c
  {
    assert b * c == a * c + (b - a) * c;
  }

  lemma MulSucc(a: nat, b: nat)
    ensures (a + 1) * b == a * b + b
  {
  }

  /** `ToBase` uses at most `k` digits for a number below `base^k`. */
  lemma {:induction false} ToBaseLength(n: nat, base: nat, k: nat)
    requires IsBase(base) && n < Pow(base, k)
    ensures |ToBase(n, base)| <= k || (n == 0 && k == 0)
    decreases n
  {
    if n >= base {
      assert k >= 1;
      var q, P := n / base, Pow(base, k - 1);
      DivMod(n, base);
      PowSucc(base, k - 1);
      assert q < P by {
        if q >= P {
          MulMonotone(P, q, base);
        }
      }
      ToBaseLength(q, base, k - 1);
      assert ToBase(n, base) == ToBase(q, base) + [DigitChar(n % base)];
    }
  }

  /** Leading zeros do not change the value of a numeral. */
  lemma {:induction false} ValueOfLeadingZeros(z: string, s: string, base: nat)
    requires AllDigits(s, base) && base >= 1
    requires forall i :: 0 <= i < |z| ==> z[i] == '0'
    ensures AllDigits(z + s, base)
    ensures ValueOf(z + s, base) == ValueOf(s, base)
    decreases |s| + |z|
  {
    var t := z + s;
    if |s| == 0 {
      assert t == z;
      if |z| > 0 {
        ValueOfLeadingZeros(z[..|z| - 1], [], base);
        assert z[..|z| - 1] + [] == t[..|t| - 1];
      }
    } else {
      var p := s[..|s| - 1];
      assert t[..|t| - 1] == z + p;
      ValueOfLeadingZeros(z, p, base);
    }
  }

  /** `s.padStart(target, c)`: the fill character is prepended until the length reaches
      `target`; a string already that long is returned unchanged. */
  function PadStart(s: string, target: int, c: char): (r: string)
    ensures |r| == if target <= |s| then |s| else target
    ensures r[|r| - |s|..] == s
    ensures forall i :: 0 <= i < |r| - |s| ==> r[i] == c
  {
    if target <= |s| then s else seq(target - |s|, _ => c) + s
  }
}

=== FILE: wrappers.dfy ===
/** The Option type used throughout the model: `None` stands
    for JavaScript's `undefined` (a missing array slot) or for an operation that
    throws in the source. */
module Wrappers {

  datatype Option<+T> = None | Some(value: T)

  /** The slot `s[i]` of a JavaScript array: `undefined` past the end. */
  function At<T>(s: seq<T>, i: nat): (r: Option<T>)
    ensures r.Some? <==> i < |s|
    ensures r.Some? ==> r.value == s[i]
  {
    if i < |s| then Some(s[i]) else None
  }
}
